=== FILE: README.md ===
# Rental warehouse sync, modelled in Dafny

This project models the ETL engine of a small data-warehouse assignment. The
engine copies a normalised DVD-rental database into a star-schema analytics
store. The star schema has:

- date, film, actor, category, store and customer dimensions;
- the film–actor and film–category bridges;
- rental and payment facts;
- a `sync_state` table with one watermark per source table.

The model covers two parts:

- `helpers.py`: surrogate keys, date keys and date rows, the `pct_diff` drift
  metric, and one `upsert_*` transformer per entity. Each transformer builds a
  target record from a source row, follows point lookups in the source
  (language; address → city → country; inventory) and merges the record by
  primary key.
- `sync.py`: watermark initialisation, the all-or-nothing full load, the
  per-table incremental sync with a savepoint for each table, and the decision
  part of the reconciliation check.

Layout, one module per file:

- `wrappers.dfy`: `Option`, `Result`, `Outcome`.
- `dates.dfy`: the proleptic Gregorian calendar arithmetic the engine relies on.
- `models.dfy`: the source schema as maps keyed by primary key (composite keys
  for the bridges), and `SourceRow`, one row of any synced table.
- `analytics.dfy`: the target records and the store as a value (`Warehouse`).
  It also holds `Upsert`, which is merge-by-primary-key, and the
  `TargetSession` class whose fields the engine updates in place.
- `helpers.dfy`: keys, dates, `pct_diff`, the record builders, and the
  `upsert_*` methods. It also holds `get_last_update`.
- `sync.dfy`: `ensure_sync_state`, the queries, `full_load`, `incremental`
  and `validate`.
- `sync_properties.dfy`: lemmas relating several calls: idempotence,
  isolation, completeness and monotonicity.

Modelling choices:

- **Timestamps** are integers counting seconds since 1970-01-01, the epoch
  `datetime(1970, 1, 1)` the engine uses as its default watermark.
- **Nullable columns** are `Option`.
- **Python truthiness of ids** (`if row.language_id`, `if row.address_id`,
  `if row.inventory_id`) is spelled out as `Present`: null and 0 are both
  absent.
- **Savepoint and transaction rollback** restore a snapshot of the store.
- **SQLAlchemy errors** are not predictable from the data. They are inputs:
  - `faults` holds pairs `(t, i)`, meaning the data layer raises while table
    `t` writes its `i`-th selected row. `i` equal to the number of rows means
    it raises on the flush after the last row: when the savepoint is released
    in `incremental`; in `full_load`, at the target session's next flush,
    which is the next merge, the `sync_state` reads or the commit.
  - `readFaults` holds the tables whose watermark read or delta query raises
    in `incremental`. Those reads come before the `try`, so the error
    `ReadFailed` is not caught and ends the run.
- **A missing language** (the unguarded `.name` in `upsert_dim_film`) is the
  error `LanguageMissing`. It is not a SQLAlchemy error, so:
  - in `incremental` the savepoint rolls back and the run stops;
  - in `full_load` the transaction rolls back and the error propagates.
- **`max()` over a delta with no timestamps** is the `ValueError` abort
  `NoTimestamp`. It never arises for a real delta, because `>=` excludes null
  timestamps; `MaxStampOfSelection` proves this.

## Model

| member | source | states |
|---|---|---|
| Dates.DateKey | helpers.py:32-37 | the `%Y%m%d` key of any valid date lies between 00010101 and 99991231 |
| Dates.DateFromKey | helpers.py:32-37 | a key decodes only to the date whose key it is |
| Dates.DateKeyRoundTrip | helpers.py:32-37 | decoding the key of a date gives back that date |
| Dates.DateKeyInjective | helpers.py:44-45 | two dates share a key exactly when they are the same date |
| Dates.DaysInMonth | helpers.py:44-50 | every month has 28 to 31 days (the calendar `date` objects follow) |
| Dates.Weekday | helpers.py:51-52 | the weekday number lies in 0..6 |
| Dates.WeekdayAnchors | helpers.py:51-52 | 1970-01-01 is a Thursday (3), 2024-01-01 a Monday (0) and 2000-02-29 a Tuesday (1), as `weekday()` numbers them |
| Dates.NextDayInMonth | helpers.py:51-52 | the next day of a month is one day later and one weekday on, modulo 7 |
| Dates.WholeDaysBetween | helpers.py:116 | `(return - rental).days` is the floor of the elapsed seconds over 86400: non-negative exactly when the return is not earlier |
| Models.NameInjective | sync.py:128-139 | different tables keep their watermarks under different names |
| Models.RowsAreStored | sync.py:145 | a selected row belongs to the queried table and is stored under its own key |
| Analytics.Upsert | helpers.py:27-30 | after a merge the record's key holds exactly that record, every other key and the watermarks are unchanged |
| Analytics.UpsertAll | helpers.py:27-30 | a sequence of merges never touches the watermarks |
| Analytics.Extensionality | analytics.py:8-98 | two stores with the same rows under every primary key and the same watermarks are equal |
| Analytics.SameDimensions | analytics.py:8-98 | agreement on every key fixes the dimension tables |
| Analytics.SameBridgesAndFacts | analytics.py:8-98 | agreement on every key fixes the bridges, the customer dimension and the facts |
| Analytics.UpsertIdempotent | helpers.py:27-30 | merging a record twice equals merging it once |
| Analytics.UpsertAllFrame | helpers.py:27-30 | keys no merged record names keep their rows |
| Analytics.UpsertAllConcat | helpers.py:27-30 | merging two batches in turn is merging their concatenation |
| Analytics.UpsertAllKeeps | helpers.py:27-30 | a row survives a batch whose records under its key all equal it |
| Analytics.UpsertAllPresent | helpers.py:27-30 | after a consistent batch every record of the batch is in the store |
| Analytics.UpsertAllIdempotent | helpers.py:27-30 | merging a consistent batch twice equals merging it once |
| Analytics.TargetSession.constructor | analytics.py:8-98 | a session starts on the given store |
| Analytics.TargetSession.Merge | helpers.py:27-30 | `session.merge` changes the session's store exactly as `Upsert` does |
| Analytics.TargetSession.SetWatermark | sync.py:177-181 | sets or adds one `sync_state` row, nothing else changes |
| Analytics.TargetSession.Restore | sync.py:154 | a rollback returns the session to the snapshot |
| Helpers.GetKeyFromId | helpers.py:15-16 | the key is null exactly when the id is |
| Helpers.KeyRoundTrip | helpers.py:15-16 | for a positive multiplier the id is recovered from `id * multiplier + 1` |
| Helpers.KeyInjective | helpers.py:15-16 | for a positive multiplier two ids (or nulls) share a key exactly when they are equal |
| Helpers.DimKeyInjective | helpers.py:15-16 | dimension keys (multiplier 100) collide exactly for equal ids |
| Helpers.FactKeyInjective | helpers.py:108 | fact keys `id * 10 + 1` collide exactly for equal ids |
| Helpers.DateKeyFromDatetime | helpers.py:32-37 | null for null, otherwise the key that decodes to the timestamp's date |
| Helpers.DimDateOf | helpers.py:39-53 | the row carries the date, its key, year, month and day; quarter in 1..4 containing the month; weekday; weekend exactly on Saturday and Sunday |
| Helpers.DimDateFromDate | helpers.py:39-53 | null for null, otherwise a row whose key is the timestamp's date key |
| Helpers.DimDateStripsTime | helpers.py:42-43 | two timestamps give the same date row exactly when they fall on the same date |
| Helpers.CanonicalDateByKey | helpers.py:39-53 | date rows the engine builds are equal exactly when their keys are |
| Helpers.PctDiff | helpers.py:55-60 | never negative; zero exactly for equal inputs; 100 when only `a` is zero; `abs(a - b) * 100 / a` for `a >= 1`; `abs(a - b) * 100` for any other non-zero `a` |
| Helpers.PctDiffExamples | helpers.py:55-60 | `pct_diff(0, 0) = 0`, `pct_diff(0, 5) = 100`, `pct_diff(100, 101) = 1` |
| Helpers.FilmLanguage | helpers.py:69 | null when `language_id` is null or 0; the language's name when found; otherwise the lookup raises |
| Helpers.CityCountry | helpers.py:138-148 | a missing address or city nulls city and country; a found city with a missing country keeps the city and nulls the country |
| Helpers.DimFilmOf | helpers.py:62-72 | fails exactly when the language lookup does; otherwise keyed by the derived key, carries the film id, title, language and `last_update` |
| Helpers.DimActorOf | helpers.py:74-81 | the key is `id * 100 + 1` and decodes to the actor id the record carries |
| Helpers.DimCategoryOf | helpers.py:83-89 | the key is `id * 100 + 1` and decodes to the category id the record carries |
| Helpers.DimStoreOf | helpers.py:160-178 | the key is `id * 100 + 1` and decodes to the store id; city and country follow the address chain |
| Helpers.DimCustomerOf | helpers.py:136-158 | the key is `id * 100 + 1` and decodes to the customer id; city and country follow the address chain |
| Helpers.FactRentalOf | helpers.py:103-117 | fact key `id * 10 + 1`; a missing inventory nulls film and store keys; date keys of both dates; duration set exactly when both dates are present, as whole days between them |
| Helpers.FactPaymentOf | helpers.py:123-132 | fact key `id * 10 + 1`; store key always null; date key, customer key and amount from the row |
| Helpers.DateWrites | helpers.py:118-121 | no date row for a null timestamp, otherwise one canonical row with the timestamp's key |
| Helpers.RentalWrites | helpers.py:103-121 | the fact first, then exactly one canonical date row per present date: the rental date's row second and the return date's row last; every date key the fact refers to has a date row |
| Helpers.PaymentWrites | helpers.py:123-134 | the fact first, then one date row exactly when `payment_date` is present, carrying the fact's date key |
| Helpers.RowWrites | sync.py:155-175 | the per-table dispatch: only film rows can fail (language miss); inventory rows and only they produce nothing |
| Helpers.RowWritesShape | sync.py:155-175 | the first record of a row sits under the row's own surrogate key; every later one is a canonical date row |
| Helpers.PrimaryKeyInjective | helpers.py:15-16 | distinct stored rows never map to the same surrogate key |
| Helpers.SourceWritesAgree | helpers.py:27-30 | two records produced from the source under one key are equal, so re-merging never conflicts |
| Helpers.WriteShape | helpers.py:62-178 | a row's record is a canonical date row or sits under the row's own key |
| Helpers.SourceWritesConsistent | helpers.py:27-30 | any batch of records produced from the source is consistent |
| Helpers.UpsertDimFilm | helpers.py:62-72 | merges the film's record, or raises without writing when the language is missing |
| Helpers.UpsertDimActor | helpers.py:74-81 | merges the actor's record |
| Helpers.UpsertDimCategory | helpers.py:83-89 | merges the category's record |
| Helpers.UpsertFilmActor | helpers.py:91-95 | merges the bridge row of the two derived keys |
| Helpers.UpsertFilmCategory | helpers.py:97-101 | merges the bridge row of the two derived keys |
| Helpers.UpsertRental | helpers.py:103-121 | the session ends as merging `RentalWrites` in order |
| Helpers.UpsertPayment | helpers.py:123-134 | the session ends as merging `PaymentWrites` in order |
| Helpers.UpsertCustomer | helpers.py:136-158 | merges the customer's record |
| Helpers.UpsertStore | helpers.py:160-178 | merges the store's record |
| Helpers.UpsertRow | sync.py:155-175 | runs the row's transformer: the session ends as merging `RowWrites`, or unchanged with the error |
| Helpers.IsLastUpdateUnique | helpers.py:18-25 | a table has only one last-update value |
| Helpers.GetLastUpdate | helpers.py:18-25 | the maximum non-null `last_update` of the table, or the epoch when there is none |
| Sync.EnsuredMarks | sync.py:35-53 | every listed table has a watermark; existing ones are kept; new ones are the epoch |
| Sync.EnsuredMarksIdempotent | sync.py:35-53 | initialising twice equals initialising once |
| Sync.EnsureSyncState | sync.py:49-53 | only the watermarks change, and they become `EnsuredMarks` of the old ones |
| Sync.SelectAll | sync.py:62-96 | every row of the table exactly once, so as many rows as the table has |
| Sync.SelectSince | sync.py:145 | exactly the rows with `last_update >= since`, each once, in ascending `last_update` order |
| Sync.TableRowRecords | sync.py:62-96 | every record of a transformable row of a table is a source record |
| Sync.RowsWrittenSnoc | sync.py:62-96 | merging the next row's records keeps every record of every loaded row among those written |
| Sync.LoadTable | sync.py:62-96 | on success the session is the old one with the table's records merged, every row's records are among them and no fault lies on the table's rows or the flush after them; a failure needs such a fault or a film row that cannot transform, and the error raised is the data-layer error of a fault at its own position on this table, or the language error of one of its rows |
| Sync.LoadedPrefixSnoc | sync.py:62-96 | merging the next row's records extends the loaded prefix of a table by that row, and those records are source records |
| Sync.LoadedWholeTable | sync.py:62-96 | all selected rows loaded and the flush unfaulted means every row of the table is loaded and no fault lies on its positions |
| Sync.LoadFaultSnoc | sync.py:57-96 | no fault on the loaded tables and none on the next table means none on all of them |
| Sync.LoadedTablesSnoc | sync.py:57-96 | loading the next table of the load order extends the loaded tables and the fault-free positions |
| Sync.TableFailure | sync.py:57-96 | a table of the load order fails only through a fault on its positions or a film that cannot transform |
| Sync.LoadedAllTables | sync.py:57-96 | once every table is loaded, no fault hit the load and every film transformed |
| Sync.WriteWatermarks | sync.py:98-116 | each of the ten watermarks becomes its table's last update, other watermarks and all rows are unchanged |
| Sync.LoadTables | sync.py:57-96 | on success every row of the nine loaded tables is merged; it fails exactly when a film cannot transform or a fault lies on a row of a loaded table or on the flush after one, and the error raised belongs to one loaded table as in `LoadTable` |
| Sync.LoadedStore | sync.py:57-96 | after the load every transformed record is in the store and only keys those records name changed |
| Sync.FullLoadPostHolds | sync.py:57-118 | the merged records plus the new watermarks establish the full-load postcondition |
| Sync.FullLoad | sync.py:55-124 | on failure the store is exactly as before; on success every loaded row's records are present, only their keys changed, every watermark is its table's last update and other watermarks are untouched; it fails exactly when a film cannot transform or a fault lies on a row of a loaded table or on the flush after one, and the error raised is a data-layer error at that fault's table and position or a film's language error |
| Sync.MaxStamp | sync.py:152 | null exactly when no row has a timestamp, otherwise the largest one, which some row carries |
| Sync.ApplyRows | sync.py:154-181 | the savepoint succeeds exactly when no fault hits and every row transforms; success leaves the watermarks alone; a data-layer error names the table being synced |
| Sync.ApplyRowsErrorSource | sync.py:154-186 | a failed savepoint reports either a fault that hit one of its writes or the error of a row that cannot transform |
| Sync.TableStep | sync.py:147-186 | no changes exactly for an empty delta; any outcome other than advancing leaves the store as it was; advancing sets only the table's watermark to the delta's maximum; a data-layer error while writing inside the `try` rolls back, any other error there aborts |
| Sync.ApplyInSavepoint | sync.py:154-181 | the session ends as `ApplyRows` says, or unchanged when it fails |
| Sync.SyncDelta | sync.py:147-186 | the session and status end as `TableStep` of the delta |
| Sync.SyncTable | sync.py:140-186 | fails with `ReadFailed` and writes nothing exactly when the table's reads raise; otherwise its run starts at the stored watermark (epoch when missing), holds that delta and ends as `TableStep` says |
| Sync.ValidRunsSnoc | sync.py:140 | appending the next table's run keeps the run history valid |
| Sync.PlanSnoc | sync.py:140 | appending the next planned table's run, when its reads succeeded, keeps the plan order, and all runs before it are non-aborted |
| Sync.RunPlan | sync.py:140-186 | the loop visits the plan's tables in order, each run valid against the store earlier tables left and only the last aborted; it ends after all ten, an abort, or a failed read of the next table |
| Sync.Incremental | sync.py:126-186 | visits the plan's tables in order; each table's run is valid against the store earlier tables left; only the last table can abort; the run stops early only on an abort or on a failed read of the next table, which is raised as `ReadFailed`; success exactly when all ten ran without abort |
| Sync.Validate | sync.py:215-227 | each problem is reported exactly when its drift is strictly above the threshold, in film, rental, payment order; payment counts play no part; `ok` exactly when there is no problem |
| SyncProperties.SourceWriteIsLoaded | sync.py:62-96 | every record the source produces comes from a table the full load reads |
| SyncProperties.LoadOrderCovers | sync.py:57-96 | the full load reads a synced table exactly when it is not inventory |
| SyncProperties.FullLoadIdempotent | sync.py:55-124 | a second successful full load of the same source leaves the store unchanged |
| SyncProperties.MaxStampOfSelection | sync.py:145-152 | the new watermark is the last delta row's `last_update`, never below the old watermark |
| SyncProperties.SortedMaxIsLast | sync.py:145-152 | in rows ordered by `last_update`, a stamped last row carries the maximum |
| SyncProperties.ApplyRowsIgnoresState | sync.py:154-186 | success and error of a savepoint do not depend on the store it starts from |
| SyncProperties.StepStatusIgnoresState | sync.py:140-186 | a table's outcome does not depend on what earlier tables did |
| SyncProperties.StepAdvancesIff | sync.py:147-186 | a table advances exactly when its delta is non-empty, no fault hits and every row transforms |
| SyncProperties.ApplyRowsMerges | sync.py:154-175 | a released savepoint holds exactly the delta's records merged in order |
| SyncProperties.FlatFromRecords | sync.py:155-175 | the delta's records are source records and include every record of every row |
| SyncProperties.StepWritesPresent | sync.py:154-181 | after a table advances every record of its delta is in the store |
| SyncProperties.StepChangesAreSourceWrites | sync.py:154-181 | a table step changes a key only to a record the source produces |
| SyncProperties.InventoryRecordsEmpty | sync.py:166-167 | inventory rows produce no records |
| SyncProperties.InventoryStepWritesNothing | sync.py:166-167 | syncing inventory changes no dimension or fact row, only its watermark |
| SyncProperties.RunAdvancesIff | sync.py:140-186 | in a run, each table whose reads succeeded advances exactly when its own delta is non-empty, free of write faults and transformable, whatever the other tables did |
| SyncProperties.RecordKept | sync.py:140-186 | a source record in the store stays there through the later tables |
| SyncProperties.DeltaApplied | sync.py:140-186 | every record of an advanced table's delta is in the store at the end of the run |
| SyncProperties.RunChangesAreSourceWrites | sync.py:126-186 | a run changes a key only to a record the source produces |
| SyncProperties.MarksNeverDecrease | sync.py:140-181 | no watermark moves backwards during an incremental run |
| SyncProperties.MarkUntouched | sync.py:177-181 | runs of other tables leave a table's watermark alone |
| SyncProperties.LastRunKeepsMark | sync.py:177-181 | the last run, when it is another table's, leaves a table's watermark alone |
| SyncProperties.RunStartMark | sync.py:140-145 | with each table visited once, a table's delta starts at the watermark it had when the run began |
| SyncProperties.RunEndMark | sync.py:147-186 | with each table visited once, a table's final watermark is its delta's maximum if it advanced and unchanged otherwise |
| SyncProperties.AdvancedMarkBounds | sync.py:145-152 | an advanced table's new watermark is at least its old one and at least every delta row's `last_update` |
| SyncProperties.PlanDistinct | sync.py:128-139 | the plan visits each table once |
| SyncProperties.ChangedRowApplied | sync.py:145-181 | a row changed at or after the watermark reaches the store when its table advances |
| SyncProperties.EditedFilmReplaced | test_sync.py:75-92 | an edited film is seen under its old key with its new title after its table advances |

## Left out

- Engine and session creation, schema creation, argument parsing and the
  command dispatch (sync.py:15-33, sync.py:229-253): wiring around
  the library, with no behaviour of their own.
- Logging throughout: it has no effect on the data.
- The SQL aggregate queries of `validate` and its `datetime.now()` cutoff
  (sync.py:190-211): `Validate` takes the six aggregates as inputs.
- `Validate`: the problems are a datatype rather than message strings.
- `Validate`: counts are naturals and sums are reals. The `x or 0` fallbacks
  of the source are therefore the identity.
- Floating-point arithmetic: `PctDiff` and the payment amounts use exact
  reals, so float rounding is not modelled.
- `dateutil` parsing of string timestamps (helpers.py:35-36): timestamps are
  already structured values.
- Sub-second precision of timestamps: seconds are the finest unit.
- Weekday (`Dates.Weekday`): the contract states only the range 0..6. The
  Monday-is-0 numbering rests on the days-since-epoch formula; the anchor dates
  of `Dates.WeekdayAnchors` and the one-day step of `Dates.NextDayInMonth` pin
  it down, but no lemma covers the step across a month boundary.
- `Sync.EnsureSyncState`: a data-layer error from its `get` reads or its
  commit (sync.py:49-53) is not modelled. In the source it propagates to its
  caller.
- `Sync.FullLoad`: data-layer errors in the watermark phase (the
  `get_last_update` queries and `sync_state` reads and writes at
  sync.py:98-116) and in the commit (sync.py:118) are not modelled
  separately. Like every other error there, they would roll the whole
  transaction back and be raised again. A failing source query of a table
  (sync.py:59-94) has the effect of a fault on that table's first position.
- The outer commit and durable persistence: `incremental` never commits,
  and `ensure_sync_state` and `full_load` commit at the end. The model keeps
  the session's state and does not model what reaches disk.
- The unused `lang_map` (sync.py:59-60). Reading the languages has no effect
  on the result.
- Row order:
  - `select(model).all()` returns rows in an order the model leaves open;
    `SelectAll` picks it arbitrarily.
  - Ties in `ORDER BY last_update` are broken arbitrarily.
  - The order of rows never changes the final store, because records
    produced from the source agree per key (`SourceWritesAgree`).
- A `sync_state` row whose `last_synced` is null is not representable: the
  watermark map holds timestamps only.
- Concurrent writers to either database are not modelled.
- `models.py` and `analytics.py` only give the fields of the datatypes.
  Every source row model keeps only the columns the engine reads; primary
  keys are the keys of the table maps. Dropped columns include the film's
  `description`, `rental_duration` and `rental_rate` (models.py:16-20),
  the store's `manager_staff_id` (models.py:75), the customer's
  `store_id`, `email` and `create_date` (models.py:82-87) and the
  payment's `rental_id` (models.py:113), as well as the unread columns of
  the address, city, country and language tables.

=== FILE: analytics.dfy ===
/**
 * The star-schema analytics store: dimension, bridge and fact tables keyed by
 * their primary keys, plus the `sync_state` watermarks. `Upsert` is
 * `session.merge`: insert or replace by primary key.
 */
module Analytics {
  import opened Wrappers
  import opened Dates
  import opened Models

  datatype DimDate = DimDate(dateKey: int, date: Date, year: int, quarter: int, month: int,
                             dayOfMonth: int, dayOfWeek: int, isWeekend: bool)
  datatype DimFilm = DimFilm(filmKey: int, filmId: Id, title: Option<string>, rating: Option<string>,
                             length: Option<int>, language: Option<string>, releaseYear: Option<int>,
                             lastUpdate: Option<Stamp>)
  datatype DimActor = DimActor(actorKey: int, actorId: Id, firstName: Option<string>,
                               lastName: Option<string>, lastUpdate: Option<Stamp>)
  datatype DimCategory = DimCategory(categoryKey: int, categoryId: Id, name: Option<string>,
                                     lastUpdate: Option<Stamp>)
  datatype DimStore = DimStore(storeKey: int, storeId: Id, city: Option<string>, country: Option<string>,
                               lastUpdate: Option<Stamp>)
  datatype DimCustomer = DimCustomer(customerKey: int, customerId: Id, firstName: Option<string>,
                                     lastName: Option<string>, active: Option<int>, city: Option<string>,
                                     country: Option<string>, lastUpdate: Option<Stamp>)
  datatype FactRental = FactRental(factRentalKey: int, rentalId: Id, dateKeyRented: Option<int>,
                                   dateKeyReturned: Option<int>, filmKey: Option<int>, storeKey: Option<int>,
                                   customerKey: Option<int>, staffId: Option<int>,
                                   rentalDurationDays: Option<int>)
  datatype FactPayment = FactPayment(factPaymentKey: int, paymentId: Id, dateKeyPaid: Option<int>,
                                     customerKey: Option<int>, storeKey: Option<int>, staffId: Option<int>,
                                     amount: Option<real>)

  /** One record handed to `session.merge`. A bridge row is nothing but its two keys. */
  datatype Write =
    | PutDate(dimDate: DimDate)
    | PutFilm(dimFilm: DimFilm)
    | PutActor(dimActor: DimActor)
    | PutCategory(dimCategory: DimCategory)
    | PutFilmActor(filmKey: int, actorKey: int)
    | PutFilmCategory(filmKey: int, categoryKey: int)
    | PutStore(dimStore: DimStore)
    | PutCustomer(dimCustomer: DimCustomer)
    | PutRental(factRental: FactRental)
    | PutPayment(factPayment: FactPayment)

  /** A primary key of the star schema: the table and the key within it. */
  datatype TargetKey =
    | DateAt(int) | FilmAt(int) | ActorAt(int) | CategoryAt(int)
    | FilmActorAt(int, int) | FilmCategoryAt(int, int)
    | StoreAt(int) | CustomerAt(int) | RentalAt(int) | PaymentAt(int)

  /** The primary key `merge` matches a record on. */
  function KeyOf(w: Write): TargetKey {
    match w
    case PutDate(d) => DateAt(d.dateKey)
    case PutFilm(f) => FilmAt(f.filmKey)
    case PutActor(a) => ActorAt(a.actorKey)
    case PutCategory(c) => CategoryAt(c.categoryKey)
    case PutFilmActor(f, a) => FilmActorAt(f, a)
    case PutFilmCategory(f, c) => FilmCategoryAt(f, c)
    case PutStore(s) => StoreAt(s.storeKey)
    case PutCustomer(c) => CustomerAt(c.customerKey)
    case PutRental(r) => RentalAt(r.factRentalKey)
    case PutPayment(p) => PaymentAt(p.factPaymentKey)
  }

  /** The whole analytics store as a value. */
  datatype Warehouse = Warehouse(
    dimDate: map<int, DimDate>,
    dimFilm: map<int, DimFilm>,
    dimActor: map<int, DimActor>,
    dimCategory: map<int, DimCategory>,
    bridgeFilmActor: set<(int, int)>,
    bridgeFilmCategory: set<(int, int)>,
    dimStore: map<int, DimStore>,
    dimCustomer: map<int, DimCustomer>,
    factRental: map<int, FactRental>,
    factPayment: map<int, FactPayment>,
    syncState: map<string, Stamp>)

  /**
   * `session.get(Model, key)`: the row stored under a primary key, as the
   * record that would be merged. Each keyed table is read through its own
   * row function, so a key of one table is seen not to depend on the others.
   */
  function Lookup(wh: Warehouse, k: TargetKey): Option<Write> {
    match k
    case DateAt(key) => DateAtKey(wh.dimDate, key)
    case FilmAt(key) => FilmAtKey(wh.dimFilm, key)
    case ActorAt(key) => ActorAtKey(wh.dimActor, key)
    case CategoryAt(key) => CategoryAtKey(wh.dimCategory, key)
    case FilmActorAt(f, a) => if (f, a) in wh.bridgeFilmActor then Some(PutFilmActor(f, a)) else None
    case FilmCategoryAt(f, c) => if (f, c) in wh.bridgeFilmCategory then Some(PutFilmCategory(f, c)) else None
    case StoreAt(key) => StoreAtKey(wh.dimStore, key)
    case CustomerAt(key) => CustomerAtKey(wh.dimCustomer, key)
    case RentalAt(key) => RentalAtKey(wh.factRental, key)
    case PaymentAt(key) => PaymentAtKey(wh.factPayment, key)
  }

  function DateAtKey(m: map<int, DimDate>, key: int): Option<Write> {
    if key in m then Some(PutDate(m[key])) else None
  }

  function FilmAtKey(m: map<int, DimFilm>, key: int): Option<Write> {
    if key in m then Some(PutFilm(m[key])) else None
  }

  function ActorAtKey(m: map<int, DimActor>, key: int): Option<Write> {
    if key in m then Some(PutActor(m[key])) else None
  }

  function CategoryAtKey(m: map<int, DimCategory>, key: int): Option<Write> {
    if key in m then Some(PutCategory(m[key])) else None
  }

  function StoreAtKey(m: map<int, DimStore>, key: int): Option<Write> {
    if key in m then Some(PutStore(m[key])) else None
  }

  function CustomerAtKey(m: map<int, DimCustomer>, key: int): Option<Write> {
    if key in m then Some(PutCustomer(m[key])) else None
  }

  function RentalAtKey(m: map<int, FactRental>, key: int): Option<Write> {
    if key in m then Some(PutRental(m[key])) else None
  }

  function PaymentAtKey(m: map<int, FactPayment>, key: int): Option<Write> {
    if key in m then Some(PutPayment(m[key])) else None
  }

  /**
   * Merge by primary key: afterwards the record's key holds exactly that
   * record, every other key holds what it held before, and the watermarks
   * are untouched.
   */
  function Upsert(wh: Warehouse, w: Write): (r: Warehouse)
    ensures Lookup(r, KeyOf(w)) == Some(w)
    ensures forall k :: k != KeyOf(w) ==> Lookup(r, k) == Lookup(wh, k)
    ensures r.syncState == wh.syncState
  {
    match w
    case PutDate(d) => wh.(dimDate := wh.dimDate[d.dateKey := d])
    case PutFilm(f) => wh.(dimFilm := wh.dimFilm[f.filmKey := f])
    case PutActor(a) => wh.(dimActor := wh.dimActor[a.actorKey := a])
    case PutCategory(c) => wh.(dimCategory := wh.dimCategory[c.categoryKey := c])
    case PutFilmActor(f, a) => wh.(bridgeFilmActor := wh.bridgeFilmActor + {(f, a)})
    case PutFilmCategory(f, c) => wh.(bridgeFilmCategory := wh.bridgeFilmCategory + {(f, c)})
    case PutStore(s) => wh.(dimStore := wh.dimStore[s.storeKey := s])
    case PutCustomer(c) => wh.(dimCustomer := wh.dimCustomer[c.customerKey := c])
    case PutRental(x) => wh.(factRental := wh.factRental[x.factRentalKey := x])
    case PutPayment(p) => wh.(factPayment := wh.factPayment[p.factPaymentKey := p])
  }

  /** Successive merges, in order; they never touch the watermarks. */
  function UpsertAll(wh: Warehouse, ws: seq<Write>): (r: Warehouse)
    ensures r.syncState == wh.syncState
    decreases |ws|
  {
    if ws == [] then wh else UpsertAll(Upsert(wh, ws[0]), ws[1..])
  }

  /** The analytics tables are determined by what every primary key holds. */
  lemma Extensionality(a: Warehouse, b: Warehouse)
    requires forall k :: Lookup(a, k) == Lookup(b, k)
    requires a.syncState == b.syncState
    ensures a == b
  {
    SameDimensions(a, b);
    SameBridgesAndFacts(a, b);
  }

  /** Agreement on every key fixes the dimension tables. */
  lemma SameDimensions(a: Warehouse, b: Warehouse)
    requires forall k :: Lookup(a, k) == Lookup(b, k)
    ensures a.dimDate == b.dimDate && a.dimFilm == b.dimFilm && a.dimActor == b.dimActor
    ensures a.dimCategory == b.dimCategory && a.dimStore == b.dimStore
  {
    forall key ensures key in a.dimDate <==> key in b.dimDate {
      assert Lookup(a, DateAt(key)) == Lookup(b, DateAt(key));
    }
    forall key | key in a.dimDate ensures a.dimDate[key] == b.dimDate[key] {
      assert Lookup(a, DateAt(key)) == Lookup(b, DateAt(key));
    }
    forall key ensures key in a.dimFilm <==> key in b.dimFilm {
      assert Lookup(a, FilmAt(key)) == Lookup(b, FilmAt(key));
    }
    forall key | key in a.dimFilm ensures a.dimFilm[key] == b.dimFilm[key] {
      assert Lookup(a, FilmAt(key)) == Lookup(b, FilmAt(key));
    }
    forall key ensures key in a.dimActor <==> key in b.dimActor {
      assert Lookup(a, ActorAt(key)) == Lookup(b, ActorAt(key));
    }
    forall key | key in a.dimActor ensures a.dimActor[key] == b.dimActor[key] {
      assert Lookup(a, ActorAt(key)) == Lookup(b, ActorAt(key));
    }
    forall key ensures key in a.dimCategory <==> key in b.dimCategory {
      assert Lookup(a, CategoryAt(key)) == Lookup(b, CategoryAt(key));
    }
    forall key | key in a.dimCategory ensures a.dimCategory[key] == b.dimCategory[key] {
      assert Lookup(a, CategoryAt(key)) == Lookup(b, CategoryAt(key));
    }
    forall key ensures key in a.dimStore <==> key in b.dimStore {
      assert Lookup(a, StoreAt(key)) == Lookup(b, StoreAt(key));
    }
    forall key | key in a.dimStore ensures a.dimStore[key] == b.dimStore[key] {
      assert Lookup(a, StoreAt(key)) == Lookup(b, StoreAt(key));
    }
  }

  /** Agreement on every key fixes the bridges, the customer dimension and the facts. */
  lemma SameBridgesAndFacts(a: Warehouse, b: Warehouse)
    requires forall k :: Lookup(a, k) == Lookup(b, k)
    ensures a.bridgeFilmActor == b.bridgeFilmActor && a.bridgeFilmCategory == b.bridgeFilmCategory
    ensures a.dimCustomer == b.dimCustomer && a.factRental == b.factRental && a.factPayment == b.factPayment
  {
    forall p: (int, int) ensures p in a.bridgeFilmActor <==> p in b.bridgeFilmActor {
      assert Lookup(a, FilmActorAt(p.0, p.1)) == Lookup(b, FilmActorAt(p.0, p.1));
    }
    forall p: (int, int) ensures p in a.bridgeFilmCategory <==> p in b.bridgeFilmCategory {
      assert Lookup(a, FilmCategoryAt(p.0, p.1)) == Lookup(b, FilmCategoryAt(p.0, p.1));
    }
    forall key ensures key in a.dimCustomer <==> key in b.dimCustomer {
      assert Lookup(a, CustomerAt(key)) == Lookup(b, CustomerAt(key));
    }
    forall key | key in a.dimCustomer ensures a.dimCustomer[key] == b.dimCustomer[key] {
      assert Lookup(a, CustomerAt(key)) == Lookup(b, CustomerAt(key));
    }
    forall key ensures key in a.factRental <==> key in b.factRental {
      assert Lookup(a, RentalAt(key)) == Lookup(b, RentalAt(key));
    }
    forall key | key in a.factRental ensures a.factRental[key] == b.factRental[key] {
      assert Lookup(a, RentalAt(key)) == Lookup(b, RentalAt(key));
    }
    forall key ensures key in a.factPayment <==> key in b.factPayment {
      assert Lookup(a, PaymentAt(key)) == Lookup(b, PaymentAt(key));
    }
    forall key | key in a.factPayment ensures a.factPayment[key] == b.factPayment[key] {
      assert Lookup(a, PaymentAt(key)) == Lookup(b, PaymentAt(key));
    }
  }

  /** Merging the same record twice leaves the store as merging it once. */
  lemma UpsertIdempotent(wh: Warehouse, w: Write)
    ensures Upsert(Upsert(wh, w), w) == Upsert(wh, w)
  {
    var once := Upsert(wh, w);
    var twice := Upsert(once, w);
    forall k ensures Lookup(twice, k) == Lookup(once, k) {
    }
    Extensionality(twice, once);
  }

  /** Merges only change the keys they write. */
  lemma {:induction false} UpsertAllFrame(wh: Warehouse, ws: seq<Write>, k: TargetKey)
    requires forall w :: w in ws ==> KeyOf(w) != k
    ensures Lookup(UpsertAll(wh, ws), k) == Lookup(wh, k)
    decreases |ws|
  {
    if ws != [] {
      assert ws[0] in ws;
      forall w | w in ws[1..] ensures KeyOf(w) != k {
        assert w in ws;
      }
      UpsertAllFrame(Upsert(wh, ws[0]), ws[1..], k);
    }
  }

  /** Merging `a` then `b` is merging `a + b`. */
  lemma {:induction false} UpsertAllConcat(wh: Warehouse, a: seq<Write>, b: seq<Write>)
    ensures UpsertAll(wh, a + b) == UpsertAll(UpsertAll(wh, a), b)
    decreases |a|
  {
    if a != [] {
      assert (a + b)[0] == a[0];
      assert (a + b)[1..] == a[1..] + b;
      UpsertAllConcat(Upsert(wh, a[0]), a[1..], b);
    } else {
      assert a + b == b;
    }
  }

  /** No two records in `ws` disagree about what one primary key holds. */
  ghost predicate Consistent(ws: seq<Write>) {
    forall v, w :: v in ws && w in ws && KeyOf(v) == KeyOf(w) ==> v == w
  }

  /** A key already holding `w` keeps holding it through merges that agree with `w`. */
  lemma {:induction false} UpsertAllKeeps(wh: Warehouse, ws: seq<Write>, w: Write)
    requires Lookup(wh, KeyOf(w)) == Some(w)
    requires forall v :: v in ws && KeyOf(v) == KeyOf(w) ==> v == w
    ensures Lookup(UpsertAll(wh, ws), KeyOf(w)) == Some(w)
    decreases |ws|
  {
    if ws != [] {
      assert ws[0] in ws;
      forall v | v in ws[1..] && KeyOf(v) == KeyOf(w) ensures v == w {
        assert v in ws;
      }
      UpsertAllKeeps(Upsert(wh, ws[0]), ws[1..], w);
    }
  }

  /** After merging a consistent batch, every record of the batch is in the store. */
  lemma {:induction false} UpsertAllPresent(wh: Warehouse, ws: seq<Write>, w: Write)
    requires Consistent(ws)
    requires w in ws
    ensures Lookup(UpsertAll(wh, ws), KeyOf(w)) == Some(w)
    decreases |ws|
  {
    var rest := ws[1..];
    assert ws == [ws[0]] + rest;
    assert Consistent(rest) by {
      forall u, v | u in rest && v in rest && KeyOf(u) == KeyOf(v) ensures u == v {
        assert u in ws && v in ws;
      }
    }
    if w in rest {
      UpsertAllPresent(Upsert(wh, ws[0]), rest, w);
    } else {
      assert w == ws[0];
      forall v | v in rest && KeyOf(v) == KeyOf(w) ensures v == w {
        assert v in ws;
      }
      UpsertAllKeeps(Upsert(wh, w), rest, w);
    }
  }

  /** Merging a consistent batch a second time changes nothing. */
  lemma UpsertAllIdempotent(wh: Warehouse, ws: seq<Write>)
    requires Consistent(ws)
    ensures UpsertAll(UpsertAll(wh, ws), ws) == UpsertAll(wh, ws)
  {
    var once := UpsertAll(wh, ws);
    var twice := UpsertAll(once, ws);
    forall k ensures Lookup(twice, k) == Lookup(once, k) {
      if w :| w in ws && KeyOf(w) == k {
        UpsertAllPresent(wh, ws, w);
        UpsertAllPresent(once, ws, w);
      } else {
        UpsertAllFrame(once, ws, k);
      }
    }
    Extensionality(twice, once);
  }

  /**
   * The target session: the analytics tables and the watermarks, changed in
   * place by merges, watermark writes and savepoint rollbacks.
   */
  class TargetSession {
    var dimDate: map<int, DimDate>
    var dimFilm: map<int, DimFilm>
    var dimActor: map<int, DimActor>
    var dimCategory: map<int, DimCategory>
    var bridgeFilmActor: set<(int, int)>
    var bridgeFilmCategory: set<(int, int)>
    var dimStore: map<int, DimStore>
    var dimCustomer: map<int, DimCustomer>
    var factRental: map<int, FactRental>
    var factPayment: map<int, FactPayment>
    var syncState: map<string, Stamp>

    /** The store as a value: what a snapshot (savepoint) captures. */
    function State(): Warehouse
      reads this
    {
      Warehouse(dimDate, dimFilm, dimActor, dimCategory, bridgeFilmActor, bridgeFilmCategory,
                dimStore, dimCustomer, factRental, factPayment, syncState)
    }

    constructor (wh: Warehouse)
      ensures State() == wh
    {
      dimDate, dimFilm, dimActor, dimCategory := wh.dimDate, wh.dimFilm, wh.dimActor, wh.dimCategory;
      bridgeFilmActor, bridgeFilmCategory := wh.bridgeFilmActor, wh.bridgeFilmCategory;
      dimStore, dimCustomer := wh.dimStore, wh.dimCustomer;
      factRental, factPayment := wh.factRental, wh.factPayment;
      syncState := wh.syncState;
    }

    /** `session.merge(obj)`. */
    method Merge(w: Write)
      modifies this
      ensures State() == Upsert(old(State()), w)
    {
      match w
      case PutDate(d) => dimDate := dimDate[d.dateKey := d];
      case PutFilm(f) => dimFilm := dimFilm[f.filmKey := f];
      case PutActor(a) => dimActor := dimActor[a.actorKey := a];
      case PutCategory(c) => dimCategory := dimCategory[c.categoryKey := c];
      case PutFilmActor(f, a) => bridgeFilmActor := bridgeFilmActor + {(f, a)};
      case PutFilmCategory(f, c) => bridgeFilmCategory := bridgeFilmCategory + {(f, c)};
      case PutStore(st) => dimStore := dimStore[st.storeKey := st];
      case PutCustomer(c) => dimCustomer := dimCustomer[c.customerKey := c];
      case PutRental(x) => factRental := factRental[x.factRentalKey := x];
      case PutPayment(p) => factPayment := factPayment[p.factPaymentKey := p];
    }

    /** Sets `last_synced` of the `sync_state` row `name`, adding the row if missing. */
    method SetWatermark(name: string, ts: Stamp)
      modifies this
      ensures State() == old(State()).(syncState := old(syncState)[name := ts])
    {
      syncState := syncState[name := ts];
    }

    /** Rolls back to a snapshot taken earlier (a savepoint or the transaction start). */
    method Restore(snapshot: Warehouse)
      modifies this
      ensures State() == snapshot
    {
      dimDate, dimFilm, dimActor, dimCategory := snapshot.dimDate, snapshot.dimFilm, snapshot.dimActor, snapshot.dimCategory;
      bridgeFilmActor, bridgeFilmCategory := snapshot.bridgeFilmActor, snapshot.bridgeFilmCategory;
      dimStore, dimCustomer := snapshot.dimStore, snapshot.dimCustomer;
      factRental, factPayment := snapshot.factRental, snapshot.factPayment;
      syncState := snapshot.syncState;
    }
  }
}

=== FILE: dates.dfy ===
/**
 * Calendar arithmetic standing in for Python's `datetime`: proleptic Gregorian
 * dates between years 1 and 9999, the `YYYYMMDD` date key, day counts from the
 * Unix epoch, the Monday-is-0 weekday and the whole-day difference of two
 * timestamps (`timedelta.days`).
 */
module Dates {
  import opened Wrappers

  const MinYear := 1
  const MaxYear := 9999
  const SecondsPerDay := 86400

  predicate IsLeapYear(y: int) {
    y % 4 == 0 && (y % 100 != 0 || y % 400 == 0)
  }

  function DaysInMonth(y: int, m: int): (n: int)
    requires 1 <= m <= 12
    ensures 28 <= n <= 31
  {
    if m == 2 then (if IsLeapYear(y) then 29 else 28)
    else if m == 4 || m == 6 || m == 9 || m == 11 then 30
    else 31
  }

  datatype CivilDate = CivilDate(year: int, month: int, day: int) {
    predicate Valid() {
      MinYear <= year <= MaxYear && 1 <= month <= 12 && 1 <= day <= DaysInMonth(year, month)
    }
  }

  /** A calendar date Python's `date` can represent. */
  type Date = d: CivilDate | d.Valid() witness CivilDate(1970, 1, 1)

  type SecondOfDay = s: int | 0 <= s < SecondsPerDay

  /** A timestamp: a date and the second of that day (sub-second parts are not modelled). */
  datatype DateTime = DateTime(date: Date, second: SecondOfDay)

  /** `int(d.strftime("%Y%m%d"))`. */
  function DateKey(d: Date): (k: int)
    ensures 10101 <= k <= 99991231
  {
    assert d.day <= DaysInMonth(d.year, d.month) <= 31;
    d.year * 10000 + d.month * 100 + d.day
  }

  /** Reads a `YYYYMMDD` key back as a date, if it names one. */
  function DateFromKey(k: int): (r: Option<Date>)
    ensures r.Some? ==> DateKey(r.value) == k
  {
    var c := CivilDate(k / 10000, k % 10000 / 100, k % 100);
    if c.Valid() then Some(c) else None
  }

  /** Division by a positive divisor undoes `q * b + r` when `r` is a remainder. */
  lemma DivModOf(q: int, r: int, b: int)
    requires b > 0 && 0 <= r < b
    ensures (q * b + r) / b == q && (q * b + r) % b == r
  {
    var a := q * b + r;
    var q', r' := a / b, a % b;
    assert a == q' * b + r' && 0 <= r' < b;
    assert (q - q') * b == r' - r;
    if q - q' >= 1 {
      assert false;
    } else if q - q' <= -1 {
      assert false;
    }
  }

  /** The date key loses nothing: the date can be read back from it. */
  lemma DateKeyRoundTrip(d: Date)
    ensures DateFromKey(DateKey(d)) == Some(d)
  {
    var low := d.month * 100 + d.day;
    DivModOf(d.year, low, 10000);
    DivModOf(d.month, d.day, 100);
    assert DateKey(d) == d.year * 10000 + low;
  }

  /** Two dates share a date key exactly when they are the same date. */
  lemma DateKeyInjective(a: Date, b: Date)
    ensures DateKey(a) == DateKey(b) <==> a == b
  {
    DateKeyRoundTrip(a);
    DateKeyRoundTrip(b);
  }

  /**
   * Days from 1970-01-01 to the first day of month `m` of year `y`, counting
   * years from March so that the leap day falls at the end of a year.
   */
  function MonthStart(y: int, m: int): int
    requires 1 <= m <= 12
  {
    var marchYear := if m <= 2 then y - 1 else y;
    var era := marchYear / 400;
    var yearOfEra := marchYear - era * 400;
    var shiftedMonth := (m + 9) % 12;
    var dayOfYear := (153 * shiftedMonth + 2) / 5;
    var dayOfEra := yearOfEra * 365 + yearOfEra / 4 - yearOfEra / 100 + dayOfYear;
    era * 146097 + dayOfEra - 719468
  }

  /** Days from 1970-01-01 to `d` (negative before it). */
  function DaysFromCivil(d: Date): int {
    MonthStart(d.year, d.month) + d.day - 1
  }

  /** `date.weekday()`: Monday is 0 and Sunday is 6; 1970-01-01 was a Thursday. */
  function Weekday(d: Date): (w: int)
    ensures 0 <= w <= 6
  {
    (DaysFromCivil(d) + 3) % 7
  }

  /** Calendar anchors of the numbering: a Thursday, a Monday and a leap-day Tuesday. */
  lemma WeekdayAnchors()
    ensures Weekday(CivilDate(1970, 1, 1)) == 3
    ensures Weekday(CivilDate(2024, 1, 1)) == 0
    ensures Weekday(CivilDate(2000, 2, 29)) == 1
  {
    assert MonthStart(1970, 1) == 0;
    assert MonthStart(2024, 1) == 19723;
    assert MonthStart(2000, 2) == 10988;
  }

  /** Seconds since the Unix epoch. */
  function Seconds(t: DateTime): int {
    DaysFromCivil(t.date) * SecondsPerDay + t.second
  }

  /** `(later - earlier).days`: whole days, rounded down as `timedelta` does. */
  function WholeDaysBetween(earlier: DateTime, later: DateTime): (n: int)
    ensures n >= 0 <==> Seconds(later) >= Seconds(earlier)
    ensures Seconds(later) - Seconds(earlier) < (n + 1) * SecondsPerDay
    ensures n * SecondsPerDay <= Seconds(later) - Seconds(earlier)
  {
    (Seconds(later) - Seconds(earlier)) / SecondsPerDay
  }

  /** Within a month the next day is one day later and one weekday on. */
  lemma NextDayInMonth(d: Date)
    requires d.day < DaysInMonth(d.year, d.month)
    ensures CivilDate(d.year, d.month, d.day + 1).Valid()
    ensures DaysFromCivil(CivilDate(d.year, d.month, d.day + 1)) == DaysFromCivil(d) + 1
    ensures Weekday(CivilDate(d.year, d.month, d.day + 1)) == (Weekday(d) + 1) % 7
  {
    var next := CivilDate(d.year, d.month, d.day + 1);
    assert next.Valid();
    assert DaysFromCivil(next) == DaysFromCivil(d) + 1;
    var n := DaysFromCivil(d) + 3;
    ModSucc(n);
  }

  lemma ModSucc(n: int)
    ensures (n + 1) % 7 == (n % 7 + 1) % 7
  {
    var q := n / 7;
    var r := n % 7;
    assert n == 7 * q + r;
    if r == 6 {
      assert n + 1 == 7 * (q + 1);
    } else {
      assert n + 1 == 7 * q + (r + 1);
    }
  }
}

=== FILE: helpers.dfy ===
/**
 * The row transformers and their helpers: surrogate keys, date keys and the
 * date dimension, the drift metric, one record builder per source entity, the
 * per-table dispatch to them, and the methods that merge the records into the
 * target session.
 */
module Helpers {
  import opened Wrappers
  import opened Dates
  import opened Models
  import opened Analytics

  /** The errors a sync can raise. */
  datatype SyncError =
    | LanguageMissing(languageId: Id)       // `.name` on a failed language lookup (an AttributeError)
    | DataLayer(table: Table, position: nat) // a SQLAlchemyError while writing a table's rows
    | NoTimestamp(table: Table)             // `max()` of no timestamps (a ValueError)
    | ReadFailed(table: Table)              // a SQLAlchemyError reading a table's watermark or delta

  // ---------------------------------------------------------------- keys

  /** The multiplier dimensions use (`get_key_from_id`'s default). */
  const DefaultMultiplier := 100
  /** The multiplier of the fact keys `id * 10 + 1`. */
  const FactMultiplier := 10

  /** `get_key_from_id(id, multiplier)`: `id * multiplier + 1`, or None for None. */
  function GetKeyFromId(id: Option<Id>, multiplier: int): (r: Option<int>)
    ensures r.Some? <==> id.Some?
  {
    if id.Some? then Some(id.value * multiplier + 1) else None
  }

  /** Recovers the natural id from a surrogate key. */
  function IdFromKey(key: int, multiplier: int): Id
    requires multiplier > 0
  {
    (key - 1) / multiplier
  }

  /** For a positive multiplier the natural id can be read back from its surrogate key. */
  lemma KeyRoundTrip(id: Id, multiplier: int)
    requires multiplier > 0
    ensures IdFromKey(GetKeyFromId(Some(id), multiplier).value, multiplier) == id
  {
    var key := GetKeyFromId(Some(id), multiplier).value;
    assert key - 1 == id * multiplier;
    DivModOf(id, 0, multiplier);
  }

  /** For a positive multiplier, distinct ids (and None) never share a surrogate key. */
  lemma KeyInjective(a: Option<Id>, b: Option<Id>, multiplier: int)
    requires multiplier > 0
    ensures GetKeyFromId(a, multiplier) == GetKeyFromId(b, multiplier) <==> a == b
  {
    if a.Some? && b.Some? && GetKeyFromId(a, multiplier) == GetKeyFromId(b, multiplier) {
      KeyRoundTrip(a.value, multiplier);
      KeyRoundTrip(b.value, multiplier);
    }
  }

  /** `get_key_from_id(id)` with the default multiplier. */
  function KeyFromId(id: Option<Id>): Option<int> {
    GetKeyFromId(id, DefaultMultiplier)
  }

  /** The surrogate key of a dimension row with natural id `id`. */
  function DimKey(id: Id): int {
    GetKeyFromId(Some(id), DefaultMultiplier).value
  }

  /** The surrogate key of a fact row: `id * 10 + 1`. */
  function FactKey(id: Id): int {
    GetKeyFromId(Some(id), FactMultiplier).value
  }

  lemma DimKeyInjective(a: Id, b: Id)
    ensures DimKey(a) == DimKey(b) <==> a == b
  {
    KeyInjective(Some(a), Some(b), DefaultMultiplier);
  }

  lemma FactKeyInjective(a: Id, b: Id)
    ensures FactKey(a) == FactKey(b) <==> a == b
  {
    KeyInjective(Some(a), Some(b), FactMultiplier);
  }

  // ---------------------------------------------------------------- dates

  /** `date_key_from_datetime`: None for None, else the `YYYYMMDD` key of the date. */
  function DateKeyFromDatetime(dt: Option<DateTime>): (r: Option<int>)
    ensures r.Some? <==> dt.Some?
    ensures r.Some? ==> DateFromKey(r.value) == Some(dt.value.date)
  {
    if dt.None? then None
    else
      DateKeyRoundTrip(dt.value.date);
      Some(DateKey(dt.value.date))
  }

  /** The calendar-dimension row of a date. */
  function DimDateOf(d: Date): (r: DimDate)
    ensures r.date == d && r.dateKey == DateKey(d)
    ensures r.year == d.year && r.month == d.month && r.dayOfMonth == d.day
    ensures 1 <= r.quarter <= 4 && 3 * (r.quarter - 1) < r.month <= 3 * r.quarter
    ensures r.dayOfWeek == Weekday(d)
    ensures r.isWeekend <==> r.dayOfWeek == 5 || r.dayOfWeek == 6
  {
    DimDate(
      dateKey := DateKey(d),
      date := d,
      year := d.year,
      quarter := (d.month - 1) / 3 + 1,
      month := d.month,
      dayOfMonth := d.day,
      dayOfWeek := Weekday(d),
      isWeekend := Weekday(d) >= 5)
  }

  /** `dim_date_from_date`: None for None; otherwise the time of day is dropped. */
  function DimDateFromDate(dt: Option<DateTime>): (r: Option<DimDate>)
    ensures r.Some? <==> dt.Some?
    ensures r.Some? ==> Some(r.value.dateKey) == DateKeyFromDatetime(dt)
  {
    if dt.None? then None else Some(DimDateOf(dt.value.date))
  }

  /** Two timestamps give the same date row exactly when they fall on the same calendar date. */
  lemma DimDateStripsTime(a: DateTime, b: DateTime)
    ensures DimDateFromDate(Some(a)) == DimDateFromDate(Some(b)) <==> a.date == b.date
  {
    DateKeyInjective(a.date, b.date);
  }

  /** A date row as the engine builds it. */
  ghost predicate CanonicalDate(d: DimDate) {
    d == DimDateOf(d.date)
  }

  /** Date rows built by the engine are determined by their key. */
  lemma CanonicalDateByKey(a: DimDate, b: DimDate)
    requires CanonicalDate(a) && CanonicalDate(b)
    ensures a.dateKey == b.dateKey <==> a == b
  {
    DateKeyInjective(a.date, b.date);
  }

  // ---------------------------------------------------------------- drift

  function Abs(x: real): real {
    if x < 0.0 then -x else x
  }

  function Max(x: real, y: real): real {
    if x < y then y else x
  }

  /**
   * `pct_diff(a, b)`: the difference of `b` from `a` in percent of `a` (of 1
   * when `a` is below 1); 100 when only `a` is zero.
   */
  function PctDiff(a: real, b: real): (r: real)
    ensures r >= 0.0
    ensures r == 0.0 <==> a == b
    ensures a == 0.0 && b != 0.0 ==> r == 100.0
    ensures a >= 1.0 ==> r * a == Abs(a - b) * 100.0
    ensures a != 0.0 && a < 1.0 ==> r == Abs(a - b) * 100.0
  {
    if a == 0.0 && b == 0.0 then 0.0
    else if a == 0.0 then 100.0
    else Abs((a - b) / Max(a, 1.0)) * 100.0
  }

  /** Worked values of the drift metric. */
  lemma PctDiffExamples()
    ensures PctDiff(0.0, 0.0) == 0.0
    ensures PctDiff(0.0, 5.0) == 100.0
    ensures PctDiff(100.0, 101.0) == 1.0
  {
  }

  // ---------------------------------------------------------------- lookups

  /** Python truthiness of a nullable id: None and 0 both count as absent. */
  predicate Present(id: Option<Id>) {
    id.Some? && id.value != 0
  }

  /** `film.language_id` resolved to the language name; a failed lookup raises. */
  function FilmLanguage(src: SourceDb, languageId: Option<Id>): (r: Result<Option<string>, SyncError>)
    ensures r.Err? <==> Present(languageId) && languageId.value !in src.languages
    ensures r.Err? ==> r.error == LanguageMissing(languageId.value)
    ensures r.Ok? && r.value.Some? ==> Present(languageId) && src.languages[languageId.value].name == r.value
    ensures !Present(languageId) ==> r == Ok(None)
    ensures Present(languageId) && languageId.value in src.languages ==> r == Ok(src.languages[languageId.value].name)
  {
    if !Present(languageId) then Ok(None)
    else if languageId.value in src.languages then Ok(src.languages[languageId.value].name)
    else Err(LanguageMissing(languageId.value))
  }

  /** The city an `address_id` leads to, if every link of the chain is present and found. */
  function CityOfAddress(src: SourceDb, addressId: Option<Id>): Option<CityRow> {
    if Present(addressId) && addressId.value in src.addresses then
      var cityId := src.addresses[addressId.value].cityId;
      if Present(cityId) && cityId.value in src.cities then Some(src.cities[cityId.value]) else None
    else None
  }

  /**
   * The (city, country) names of an address, as `upsert_customer` and
   * `upsert_store` resolve them; a broken link nulls what lies beyond it.
   */
  function CityCountry(src: SourceDb, addressId: Option<Id>): (r: (Option<string>, Option<string>))
    ensures CityOfAddress(src, addressId).None? ==> r == (None, None)
    ensures CityOfAddress(src, addressId).Some? ==>
      var c := CityOfAddress(src, addressId).value;
      && r.0 == c.city
      && (!Present(c.countryId) || c.countryId.value !in src.countries ==> r.1 == None)
      && (Present(c.countryId) && c.countryId.value in src.countries ==> r.1 == src.countries[c.countryId.value].country)
  {
    var city: Option<string>, country: Option<string> := None, None;
    if Present(addressId) && addressId.value in src.addresses then
      var adr := src.addresses[addressId.value];
      if Present(adr.cityId) && adr.cityId.value in src.cities then
        var cityRow := src.cities[adr.cityId.value];
        if Present(cityRow.countryId) && cityRow.countryId.value in src.countries then
          (cityRow.city, src.countries[cityRow.countryId.value].country)
        else (cityRow.city, None)
      else (city, country)
    else (city, country)
  }

  /** The inventory row a rental points at, if present and found. */
  function InventoryOf(src: SourceDb, inventoryId: Option<Id>): Option<InventoryRow> {
    if Present(inventoryId) && inventoryId.value in src.inventory then Some(src.inventory[inventoryId.value]) else None
  }

  // ---------------------------------------------------------------- records

  /** The DimFilm record of a film row. */
  function DimFilmOf(src: SourceDb, id: Id, row: FilmRow): (r: Result<DimFilm, SyncError>)
    ensures r.Err? <==> FilmLanguage(src, row.languageId).Err?
    ensures r.Ok? ==> r.value.filmKey == DimKey(id) && r.value.filmId == id
    ensures r.Ok? ==> r.value.language == FilmLanguage(src, row.languageId).value
    ensures r.Ok? ==> r.value.title == row.title && r.value.lastUpdate == row.lastUpdate
  {
    match FilmLanguage(src, row.languageId)
    case Err(e) => Err(e)
    case Ok(language) =>
      Ok(DimFilm(
        filmKey := DimKey(id),
        filmId := id,
        title := row.title,
        rating := row.rating,
        length := row.length,
        language := language,
        releaseYear := row.releaseYear,
        lastUpdate := row.lastUpdate))
  }

  function DimActorOf(id: Id, row: ActorRow): (r: DimActor)
    ensures r.actorKey == DimKey(id)
    ensures IdFromKey(r.actorKey, DefaultMultiplier) == r.actorId == id
  {
    KeyRoundTrip(id, DefaultMultiplier);
    DimActor(DimKey(id), id, row.firstName, row.lastName, row.lastUpdate)
  }

  function DimCategoryOf(id: Id, row: CategoryRow): (r: DimCategory)
    ensures r.categoryKey == DimKey(id)
    ensures IdFromKey(r.categoryKey, DefaultMultiplier) == r.categoryId == id
  {
    KeyRoundTrip(id, DefaultMultiplier);
    DimCategory(DimKey(id), id, row.name, row.lastUpdate)
  }

  function DimStoreOf(src: SourceDb, id: Id, row: StoreRow): (r: DimStore)
    ensures r.storeKey == DimKey(id)
    ensures IdFromKey(r.storeKey, DefaultMultiplier) == r.storeId == id
    ensures (r.city, r.country) == CityCountry(src, row.addressId)
  {
    KeyRoundTrip(id, DefaultMultiplier);
    var (city, country) := CityCountry(src, row.addressId);
    DimStore(DimKey(id), id, city, country, row.lastUpdate)
  }

  function DimCustomerOf(src: SourceDb, id: Id, row: CustomerRow): (r: DimCustomer)
    ensures r.customerKey == DimKey(id)
    ensures IdFromKey(r.customerKey, DefaultMultiplier) == r.customerId == id
    ensures (r.city, r.country) == CityCountry(src, row.addressId)
  {
    KeyRoundTrip(id, DefaultMultiplier);
    var (city, country) := CityCountry(src, row.addressId);
    DimCustomer(DimKey(id), id, row.firstName, row.lastName, row.active, city, country, row.lastUpdate)
  }

  /** The FactRental record of a rental row. */
  function FactRentalOf(src: SourceDb, id: Id, row: RentalRow): (r: FactRental)
    ensures r.factRentalKey == FactKey(id)
    ensures IdFromKey(r.factRentalKey, FactMultiplier) == r.rentalId == id
    ensures InventoryOf(src, row.inventoryId).None? ==> r.filmKey.None? && r.storeKey.None?
    ensures InventoryOf(src, row.inventoryId).Some? ==>
      var inv := InventoryOf(src, row.inventoryId).value;
      r.filmKey == KeyFromId(inv.filmId) && r.storeKey == KeyFromId(inv.storeId)
    ensures r.customerKey == KeyFromId(row.customerId)
    ensures r.dateKeyRented == DateKeyFromDatetime(row.rentalDate)
    ensures r.dateKeyReturned == DateKeyFromDatetime(row.returnDate)
    ensures r.rentalDurationDays.Some? <==> row.rentalDate.Some? && row.returnDate.Some?
    ensures r.rentalDurationDays.Some? ==>
      r.rentalDurationDays.value == WholeDaysBetween(row.rentalDate.value, row.returnDate.value)
  {
    KeyRoundTrip(id, FactMultiplier);
    var inv := InventoryOf(src, row.inventoryId);
    var filmId := if inv.Some? then inv.value.filmId else None;
    FactRental(
      factRentalKey := FactKey(id),
      rentalId := id,
      dateKeyRented := DateKeyFromDatetime(row.rentalDate),
      dateKeyReturned := DateKeyFromDatetime(row.returnDate),
      filmKey := KeyFromId(filmId),
      storeKey := if inv.Some? then KeyFromId(inv.value.storeId) else None,
      customerKey := KeyFromId(row.customerId),
      staffId := row.staffId,
      rentalDurationDays :=
        if row.returnDate.Some? && row.rentalDate.Some?
        then Some(WholeDaysBetween(row.rentalDate.value, row.returnDate.value))
        else None)
  }

  /** The FactPayment record of a payment row; no store is linked. */
  function FactPaymentOf(id: Id, row: PaymentRow): (r: FactPayment)
    ensures r.factPaymentKey == FactKey(id)
    ensures IdFromKey(r.factPaymentKey, FactMultiplier) == r.paymentId == id
    ensures r.storeKey.None?
    ensures r.dateKeyPaid == DateKeyFromDatetime(row.paymentDate)
    ensures r.customerKey == KeyFromId(row.customerId)
    ensures r.amount == row.amount
  {
    KeyRoundTrip(id, FactMultiplier);
    FactPayment(
      factPaymentKey := FactKey(id),
      paymentId := id,
      dateKeyPaid := DateKeyFromDatetime(row.paymentDate),
      customerKey := KeyFromId(row.customerId),
      storeKey := None,
      staffId := row.staffId,
      amount := row.amount)
  }

  /** The date row written for an optional timestamp. */
  function DateWrites(dt: Option<DateTime>): (ws: seq<Write>)
    ensures dt.None? ==> ws == []
    ensures dt.Some? ==> |ws| == 1 && ws[0].PutDate? && CanonicalDate(ws[0].dimDate)
    ensures dt.Some? ==> Some(ws[0].dimDate.dateKey) == DateKeyFromDatetime(dt)
  {
    if dt.Some? then [PutDate(DimDateFromDate(dt).value)] else []
  }

  /** `upsert_rental`'s writes: the fact, then the rental date's row, then the return date's row. */
  function RentalWrites(src: SourceDb, id: Id, row: RentalRow): (ws: seq<Write>)
    ensures |ws| >= 1 && ws[0] == PutRental(FactRentalOf(src, id, row))
    ensures |ws| == 1 + (if row.rentalDate.Some? then 1 else 0) + (if row.returnDate.Some? then 1 else 0)
    ensures forall i :: 1 <= i < |ws| ==> ws[i].PutDate? && CanonicalDate(ws[i].dimDate)
    ensures forall k :: ws[0].factRental.dateKeyRented == Some(k) || ws[0].factRental.dateKeyReturned == Some(k)
                        ==> exists i :: 1 <= i < |ws| && ws[i].dimDate.dateKey == k
    ensures row.rentalDate.Some? ==> ws[1] == PutDate(DimDateOf(row.rentalDate.value.date))
    ensures row.returnDate.Some? ==> ws[|ws| - 1] == PutDate(DimDateOf(row.returnDate.value.date))
  {
    var rented := DateWrites(row.rentalDate);
    var returned := DateWrites(row.returnDate);
    var ws := [PutRental(FactRentalOf(src, id, row))] + rented + returned;
    assert row.rentalDate.Some? ==> ws[1] == rented[0];
    assert row.returnDate.Some? ==> ws[|ws| - 1] == returned[0];
    ws
  }

  /** `upsert_payment`'s writes: the fact, then the payment date's row. */
  function PaymentWrites(id: Id, row: PaymentRow): (ws: seq<Write>)
    ensures |ws| >= 1 && ws[0] == PutPayment(FactPaymentOf(id, row))
    ensures |ws| == 1 + (if row.paymentDate.Some? then 1 else 0)
    ensures forall i :: 1 <= i < |ws| ==> ws[i].PutDate? && CanonicalDate(ws[i].dimDate)
    ensures ws[0].factPayment.dateKeyPaid.Some? ==> |ws| == 2 && Some(ws[1].dimDate.dateKey) == ws[0].factPayment.dateKeyPaid
  {
    [PutPayment(FactPaymentOf(id, row))] + DateWrites(row.paymentDate)
  }

  /** The target key of the one non-date record a row produces (an inventory row produces none). */
  function PrimaryKey(r: SourceRow): Option<TargetKey> {
    match r
    case FilmR(id, _) => Some(FilmAt(DimKey(id)))
    case ActorR(id, _) => Some(ActorAt(DimKey(id)))
    case CategoryR(id, _) => Some(CategoryAt(DimKey(id)))
    case FilmActorR(actorId, filmId, _) => Some(FilmActorAt(DimKey(filmId), DimKey(actorId)))
    case FilmCategoryR(filmId, categoryId, _) => Some(FilmCategoryAt(DimKey(filmId), DimKey(categoryId)))
    case InventoryR(_, _) => None
    case RentalR(id, _) => Some(RentalAt(FactKey(id)))
    case PaymentR(id, _) => Some(PaymentAt(FactKey(id)))
    case CustomerR(id, _) => Some(CustomerAt(DimKey(id)))
    case StoreR(id, _) => Some(StoreAt(DimKey(id)))
  }

  /**
   * The records one source row is turned into, in the order they are merged:
   * the static per-table dispatch of the transformers.
   */
  function RowWrites(src: SourceDb, r: SourceRow): (res: Result<seq<Write>, SyncError>)
    ensures res.Err? ==> r.FilmR? && res.error.LanguageMissing?
    ensures res.Ok? ==> (res.value == [] <==> r.InventoryR?)
  {
    match r
    case FilmR(id, row) =>
      (match DimFilmOf(src, id, row)
       case Ok(f) => Ok([PutFilm(f)])
       case Err(e) => Err(e))
    case ActorR(id, row) => Ok([PutActor(DimActorOf(id, row))])
    case CategoryR(id, row) => Ok([PutCategory(DimCategoryOf(id, row))])
    case FilmActorR(actorId, filmId, _) => Ok([PutFilmActor(DimKey(filmId), DimKey(actorId))])
    case FilmCategoryR(filmId, categoryId, _) => Ok([PutFilmCategory(DimKey(filmId), DimKey(categoryId))])
    case InventoryR(_, _) => Ok([])
    case RentalR(id, row) => Ok(RentalWrites(src, id, row))
    case PaymentR(id, row) => Ok(PaymentWrites(id, row))
    case CustomerR(id, row) => Ok([PutCustomer(DimCustomerOf(src, id, row))])
    case StoreR(id, row) => Ok([PutStore(DimStoreOf(src, id, row))])
  }

  /** A row's own record comes first and carries its primary key; every later record is a date row built by the engine. */
  lemma RowWritesShape(src: SourceDb, r: SourceRow)
    requires RowWrites(src, r).Ok?
    ensures var ws := RowWrites(src, r).value;
      && (ws != [] ==> !ws[0].PutDate? && PrimaryKey(r) == Some(KeyOf(ws[0])))
      && (forall i :: 1 <= i < |ws| ==> ws[i].PutDate? && CanonicalDate(ws[i].dimDate))
  {
  }

  /** `w` is one of the records some stored source row is turned into. */
  ghost predicate SourceWrite(src: SourceDb, w: Write) {
    exists r :: Stored(src, r) && RowWrites(src, r).Ok? && w in RowWrites(src, r).value
  }

  /** Distinct stored rows never produce records under the same surrogate key. */
  lemma PrimaryKeyInjective(src: SourceDb, r1: SourceRow, r2: SourceRow)
    requires Stored(src, r1) && Stored(src, r2)
    requires PrimaryKey(r1).Some? && PrimaryKey(r1) == PrimaryKey(r2)
    ensures r1 == r2
  {
    match r1
    case FilmR(id, _) => DimKeyInjective(id, r2.filmId);
    case ActorR(id, _) => DimKeyInjective(id, r2.actorId);
    case CategoryR(id, _) => DimKeyInjective(id, r2.categoryId);
    case FilmActorR(actorId, filmId, _) =>
      DimKeyInjective(filmId, r2.filmId);
      DimKeyInjective(actorId, r2.actorId);
    case FilmCategoryR(filmId, categoryId, _) =>
      DimKeyInjective(filmId, r2.filmId);
      DimKeyInjective(categoryId, r2.categoryId);
    case RentalR(id, _) => FactKeyInjective(id, r2.rentalId);
    case PaymentR(id, _) => FactKeyInjective(id, r2.paymentId);
    case CustomerR(id, _) => DimKeyInjective(id, r2.customerId);
    case StoreR(id, _) => DimKeyInjective(id, r2.storeId);
  }

  /**
   * Records produced from the source never disagree about a primary key: the
   * same surrogate key always comes with the same record. This is what makes
   * re-running a load or a sync an upsert and never a duplicate.
   */
  lemma SourceWritesAgree(src: SourceDb, v: Write, w: Write)
    requires SourceWrite(src, v) && SourceWrite(src, w)
    requires KeyOf(v) == KeyOf(w)
    ensures v == w
  {
    var r1 :| Stored(src, r1) && RowWrites(src, r1).Ok? && v in RowWrites(src, r1).value;
    var r2 :| Stored(src, r2) && RowWrites(src, r2).Ok? && w in RowWrites(src, r2).value;
    WriteShape(src, r1, v);
    WriteShape(src, r2, w);
    if v.PutDate? {
      assert w.PutDate?;
      CanonicalDateByKey(v.dimDate, w.dimDate);
    } else {
      assert !w.PutDate?;
      PrimaryKeyInjective(src, r1, r2);
      assert v == RowWrites(src, r1).value[0] == w;
    }
  }

  /** A record of a row is either a date row built by the engine or the row's own record, which comes first. */
  lemma WriteShape(src: SourceDb, r: SourceRow, w: Write)
    requires RowWrites(src, r).Ok? && w in RowWrites(src, r).value
    ensures w.PutDate? ==> CanonicalDate(w.dimDate)
    ensures !w.PutDate? ==> PrimaryKey(r) == Some(KeyOf(w)) && w == RowWrites(src, r).value[0]
  {
    var ws := RowWrites(src, r).value;
    RowWritesShape(src, r);
    var i :| 0 <= i < |ws| && ws[i] == w;
  }

  /** A batch of records produced from the source is consistent. */
  lemma SourceWritesConsistent(src: SourceDb, ws: seq<Write>)
    requires forall w :: w in ws ==> SourceWrite(src, w)
    ensures Consistent(ws)
  {
    forall v, w | v in ws && w in ws && KeyOf(v) == KeyOf(w) ensures v == w {
      SourceWritesAgree(src, v, w);
    }
  }

  // ---------------------------------------------------------------- upsert_*

  /** `upsert_dim_film`: raises, writing nothing, when the language lookup misses. */
  method UpsertDimFilm(s: TargetSession, src: SourceDb, id: Id, row: FilmRow) returns (err: Option<SyncError>)
    modifies s
    ensures DimFilmOf(src, id, row).Ok? ==>
      err.None? && s.State() == Upsert(old(s.State()), PutFilm(DimFilmOf(src, id, row).value))
    ensures DimFilmOf(src, id, row).Err? ==>
      err == Some(DimFilmOf(src, id, row).error) && s.State() == old(s.State())
  {
    match DimFilmOf(src, id, row)
    case Err(e) =>
      err := Some(e);
    case Ok(f) =>
      s.Merge(PutFilm(f));
      err := None;
  }

  method UpsertDimActor(s: TargetSession, id: Id, row: ActorRow)
    modifies s
    ensures s.State() == Upsert(old(s.State()), PutActor(DimActorOf(id, row)))
  {
    s.Merge(PutActor(DimActorOf(id, row)));
  }

  method UpsertDimCategory(s: TargetSession, id: Id, row: CategoryRow)
    modifies s
    ensures s.State() == Upsert(old(s.State()), PutCategory(DimCategoryOf(id, row)))
  {
    s.Merge(PutCategory(DimCategoryOf(id, row)));
  }

  method UpsertFilmActor(s: TargetSession, actorId: Id, filmId: Id)
    modifies s
    ensures s.State() == Upsert(old(s.State()), PutFilmActor(DimKey(filmId), DimKey(actorId)))
  {
    s.Merge(PutFilmActor(DimKey(filmId), DimKey(actorId)));
  }

  method UpsertFilmCategory(s: TargetSession, filmId: Id, categoryId: Id)
    modifies s
    ensures s.State() == Upsert(old(s.State()), PutFilmCategory(DimKey(filmId), DimKey(categoryId)))
  {
    s.Merge(PutFilmCategory(DimKey(filmId), DimKey(categoryId)));
  }

  /** Merges one more record, extending the batch that describes the session so far. */
  method MergeNext(s: TargetSession, ghost start: Warehouse, ghost done: seq<Write>, w: Write)
    returns (ghost done': seq<Write>)
    requires s.State() == UpsertAll(start, done)
    modifies s
    ensures done' == done + [w]
    ensures s.State() == UpsertAll(start, done')
  {
    s.Merge(w);
    done' := done + [w];
    UpsertAllConcat(start, done, [w]);
  }

  /** `upsert_rental`: the fact row, then the date rows of the rental and return dates. */
  method UpsertRental(s: TargetSession, src: SourceDb, id: Id, row: RentalRow)
    modifies s
    ensures s.State() == UpsertAll(old(s.State()), RentalWrites(src, id, row))
  {
    ghost var start := s.State();
    ghost var done := MergeNext(s, start, [], PutRental(FactRentalOf(src, id, row)));
    if row.rentalDate.Some? {
      done := MergeNext(s, start, done, PutDate(DimDateFromDate(row.rentalDate).value));
    }
    assert done == [PutRental(FactRentalOf(src, id, row))] + DateWrites(row.rentalDate);
    if row.returnDate.Some? {
      done := MergeNext(s, start, done, PutDate(DimDateFromDate(row.returnDate).value));
    }
    assert done == [PutRental(FactRentalOf(src, id, row))] + DateWrites(row.rentalDate) + DateWrites(row.returnDate);
  }

  /** `upsert_payment`: the fact row, then the payment date's row. */
  method UpsertPayment(s: TargetSession, id: Id, row: PaymentRow)
    modifies s
    ensures s.State() == UpsertAll(old(s.State()), PaymentWrites(id, row))
  {
    ghost var start := s.State();
    ghost var done := MergeNext(s, start, [], PutPayment(FactPaymentOf(id, row)));
    if row.paymentDate.Some? {
      done := MergeNext(s, start, done, PutDate(DimDateFromDate(row.paymentDate).value));
    }
    assert done == PaymentWrites(id, row);
  }

  method UpsertCustomer(s: TargetSession, src: SourceDb, id: Id, row: CustomerRow)
    modifies s
    ensures s.State() == Upsert(old(s.State()), PutCustomer(DimCustomerOf(src, id, row)))
  {
    s.Merge(PutCustomer(DimCustomerOf(src, id, row)));
  }

  method UpsertStore(s: TargetSession, src: SourceDb, id: Id, row: StoreRow)
    modifies s
    ensures s.State() == Upsert(old(s.State()), PutStore(DimStoreOf(src, id, row)))
  {
    s.Merge(PutStore(DimStoreOf(src, id, row)));
  }

  /** Runs the transformer of a row's table; on an error nothing has been written. */
  method UpsertRow(s: TargetSession, src: SourceDb, r: SourceRow) returns (err: Option<SyncError>)
    modifies s
    ensures RowWrites(src, r).Ok? ==> err.None? && s.State() == UpsertAll(old(s.State()), RowWrites(src, r).value)
    ensures RowWrites(src, r).Err? ==> err == Some(RowWrites(src, r).error) && s.State() == old(s.State())
  {
    ghost var before := s.State();
    err := None;
    match r
    case FilmR(id, row) =>
      err := UpsertDimFilm(s, src, id, row);
    case ActorR(id, row) =>
      UpsertDimActor(s, id, row);
    case CategoryR(id, row) =>
      UpsertDimCategory(s, id, row);
    case FilmActorR(actorId, filmId, _) =>
      UpsertFilmActor(s, actorId, filmId);
    case FilmCategoryR(filmId, categoryId, _) =>
      UpsertFilmCategory(s, filmId, categoryId);
    case InventoryR(_, _) =>
    case RentalR(id, row) =>
      UpsertRental(s, src, id, row);
    case PaymentR(id, row) =>
      UpsertPayment(s, id, row);
    case CustomerR(id, row) =>
      UpsertCustomer(s, src, id, row);
    case StoreR(id, row) =>
      UpsertStore(s, src, id, row);
  }

  // ---------------------------------------------------------------- get_last_update

  /** `m` is the largest `last_update` of `rows`, or the epoch when none has one. */
  ghost predicate IsLastUpdate(rows: set<SourceRow>, m: Stamp) {
    if exists r :: r in rows && r.LastUpdate().Some? then
      && (exists r :: r in rows && r.LastUpdate() == Some(m))
      && (forall r :: r in rows && r.LastUpdate().Some? ==> r.LastUpdate().value <= m)
    else m == Epoch
  }

  /** A table has one last-update value. */
  lemma IsLastUpdateUnique(rows: set<SourceRow>, a: Stamp, b: Stamp)
    requires IsLastUpdate(rows, a) && IsLastUpdate(rows, b)
    ensures a == b
  {
    if exists r :: r in rows && r.LastUpdate().Some? {
      var ra :| ra in rows && ra.LastUpdate() == Some(a);
      var rb :| rb in rows && rb.LastUpdate() == Some(b);
      assert a <= b && b <= a;
    }
  }

  /** `get_last_update`: `SELECT MAX(last_update)`, or the epoch for an empty or all-NULL table. */
  method GetLastUpdate(rows: set<SourceRow>) returns (m: Stamp)
    ensures IsLastUpdate(rows, m)
  {
    var rest := rows;
    var best: Option<Stamp> := None;
    while rest != {}
      invariant rest <= rows
      invariant best.None? ==> forall r :: r in rows - rest ==> r.LastUpdate().None?
      invariant best.Some? ==> exists r :: r in rows - rest && r.LastUpdate() == best
      invariant best.Some? ==> forall r :: r in rows - rest && r.LastUpdate().Some? ==> r.LastUpdate().value <= best.value
      decreases rest
    {
      var r :| r in rest;
      if r.LastUpdate().Some? && (best.None? || r.LastUpdate().value > best.value) {
        best := r.LastUpdate();
      }
      rest := rest - {r};
    }
    m := best.GetOr(Epoch);
  }
}

=== FILE: models.dfy ===
/**
 * The normalized rental database the engine reads: one map per table from the
 * primary key to the row, with nullable columns as `Option`. Timestamps are
 * seconds since the Unix epoch.
 */
module Models {
  import opened Wrappers
  import opened Dates

  type Id = int

  /** A `last_update` value: seconds since 1970-01-01 00:00:00. */
  type Stamp = int

  /** `datetime(1970, 1, 1)`, the watermark of a table never synced. */
  const Epoch: Stamp := 0

  datatype LanguageRow = LanguageRow(name: Option<string>, lastUpdate: Option<Stamp>)
  datatype FilmRow = FilmRow(title: Option<string>, releaseYear: Option<int>, languageId: Option<Id>,
                             length: Option<int>, rating: Option<string>, lastUpdate: Option<Stamp>)
  datatype ActorRow = ActorRow(firstName: Option<string>, lastName: Option<string>, lastUpdate: Option<Stamp>)
  datatype CategoryRow = CategoryRow(name: Option<string>, lastUpdate: Option<Stamp>)
  /** A film_actor or film_category row; its two ids are its primary key. */
  datatype LinkRow = LinkRow(lastUpdate: Option<Stamp>)
  datatype AddressRow = AddressRow(cityId: Option<Id>, lastUpdate: Option<Stamp>)
  datatype CityRow = CityRow(city: Option<string>, countryId: Option<Id>, lastUpdate: Option<Stamp>)
  datatype CountryRow = CountryRow(country: Option<string>, lastUpdate: Option<Stamp>)
  datatype StoreRow = StoreRow(addressId: Option<Id>, lastUpdate: Option<Stamp>)
  datatype CustomerRow = CustomerRow(firstName: Option<string>, lastName: Option<string>, active: Option<int>,
                                     addressId: Option<Id>, lastUpdate: Option<Stamp>)
  datatype InventoryRow = InventoryRow(filmId: Option<Id>, storeId: Option<Id>, lastUpdate: Option<Stamp>)
  datatype RentalRow = RentalRow(rentalDate: Option<DateTime>, inventoryId: Option<Id>, customerId: Option<Id>,
                                 returnDate: Option<DateTime>, staffId: Option<int>, lastUpdate: Option<Stamp>)
  /** `amount` is a `Numeric(5,2)` column. */
  datatype PaymentRow = PaymentRow(customerId: Option<Id>, staffId: Option<int>, amount: Option<real>,
                                   paymentDate: Option<DateTime>, lastUpdate: Option<Stamp>)

  /** The source store: every table keyed by its primary key. */
  datatype SourceDb = SourceDb(
    languages: map<Id, LanguageRow>,
    films: map<Id, FilmRow>,
    actors: map<Id, ActorRow>,
    categories: map<Id, CategoryRow>,
    filmActors: map<(Id, Id), LinkRow>,      // keyed by (actor_id, film_id)
    filmCategories: map<(Id, Id), LinkRow>,  // keyed by (film_id, category_id)
    addresses: map<Id, AddressRow>,
    cities: map<Id, CityRow>,
    countries: map<Id, CountryRow>,
    stores: map<Id, StoreRow>,
    customers: map<Id, CustomerRow>,
    inventory: map<Id, InventoryRow>,
    rentals: map<Id, RentalRow>,
    payments: map<Id, PaymentRow>)

  /** The ten tables whose changes the engine tracks with a watermark. */
  datatype Table = Film | Actor | Category | FilmActor | FilmCategory | Inventory | Rental | Payment | Customer | Store

  /** The `table_name` under which a table's watermark is kept. */
  function Name(t: Table): string {
    match t
    case Film => "film"
    case Actor => "actor"
    case Category => "category"
    case FilmActor => "film_actor"
    case FilmCategory => "film_category"
    case Inventory => "inventory"
    case Rental => "rental"
    case Payment => "payment"
    case Customer => "customer"
    case Store => "store"
  }

  /** Different tables keep their watermarks under different names. */
  lemma NameInjective(t: Table, u: Table)
    ensures Name(t) == Name(u) <==> t == u
  {
  }

  /** A row of one of the ten tables together with its primary key, as a query returns it. */
  datatype SourceRow =
    | FilmR(filmId: Id, film: FilmRow)
    | ActorR(actorId: Id, actor: ActorRow)
    | CategoryR(categoryId: Id, category: CategoryRow)
    | FilmActorR(actorId: Id, filmId: Id, link: LinkRow)
    | FilmCategoryR(filmId: Id, categoryId: Id, link: LinkRow)
    | InventoryR(inventoryId: Id, item: InventoryRow)
    | RentalR(rentalId: Id, rental: RentalRow)
    | PaymentR(paymentId: Id, payment: PaymentRow)
    | CustomerR(customerId: Id, customer: CustomerRow)
    | StoreR(storeId: Id, store: StoreRow)
  {
    /** The row's `last_update` column. */
    function LastUpdate(): Option<Stamp> {
      match this
      case FilmR(_, r) => r.lastUpdate
      case ActorR(_, r) => r.lastUpdate
      case CategoryR(_, r) => r.lastUpdate
      case FilmActorR(_, _, r) => r.lastUpdate
      case FilmCategoryR(_, _, r) => r.lastUpdate
      case InventoryR(_, r) => r.lastUpdate
      case RentalR(_, r) => r.lastUpdate
      case PaymentR(_, r) => r.lastUpdate
      case CustomerR(_, r) => r.lastUpdate
      case StoreR(_, r) => r.lastUpdate
    }

    function TableOf(): Table {
      match this
      case FilmR(_, _) => Film
      case ActorR(_, _) => Actor
      case CategoryR(_, _) => Category
      case FilmActorR(_, _, _) => FilmActor
      case FilmCategoryR(_, _, _) => FilmCategory
      case InventoryR(_, _) => Inventory
      case RentalR(_, _) => Rental
      case PaymentR(_, _) => Payment
      case CustomerR(_, _) => Customer
      case StoreR(_, _) => Store
    }
  }

  /** Every row of table `t`: `select(model)`. */
  function Rows(src: SourceDb, t: Table): set<SourceRow> {
    match t
    case Film => set id | id in src.films :: FilmR(id, src.films[id])
    case Actor => set id | id in src.actors :: ActorR(id, src.actors[id])
    case Category => set id | id in src.categories :: CategoryR(id, src.categories[id])
    case FilmActor => set k | k in src.filmActors :: FilmActorR(k.0, k.1, src.filmActors[k])
    case FilmCategory => set k | k in src.filmCategories :: FilmCategoryR(k.0, k.1, src.filmCategories[k])
    case Inventory => set id | id in src.inventory :: InventoryR(id, src.inventory[id])
    case Rental => set id | id in src.rentals :: RentalR(id, src.rentals[id])
    case Payment => set id | id in src.payments :: PaymentR(id, src.payments[id])
    case Customer => set id | id in src.customers :: CustomerR(id, src.customers[id])
    case Store => set id | id in src.stores :: StoreR(id, src.stores[id])
  }

  /** `r` is the row stored under its own primary key in the source. */
  predicate Stored(src: SourceDb, r: SourceRow) {
    match r
    case FilmR(id, row) => id in src.films && src.films[id] == row
    case ActorR(id, row) => id in src.actors && src.actors[id] == row
    case CategoryR(id, row) => id in src.categories && src.categories[id] == row
    case FilmActorR(a, f, row) => (a, f) in src.filmActors && src.filmActors[(a, f)] == row
    case FilmCategoryR(f, c, row) => (f, c) in src.filmCategories && src.filmCategories[(f, c)] == row
    case InventoryR(id, row) => id in src.inventory && src.inventory[id] == row
    case RentalR(id, row) => id in src.rentals && src.rentals[id] == row
    case PaymentR(id, row) => id in src.payments && src.payments[id] == row
    case CustomerR(id, row) => id in src.customers && src.customers[id] == row
    case StoreR(id, row) => id in src.stores && src.stores[id] == row
  }

  /** A table's rows are exactly its stored rows. */
  lemma RowsAreStored(src: SourceDb, t: Table, r: SourceRow)
    ensures r in Rows(src, t) <==> r.TableOf() == t && Stored(src, r)
  {
  }

  /** `field >= since` in SQL: a row whose `last_update` is NULL is never selected. */
  predicate ChangedSince(r: SourceRow, since: Stamp) {
    r.LastUpdate().Some? && r.LastUpdate().value >= since
  }
}

=== FILE: sync.dfy ===
/**
 * The orchestrators: watermark initialisation, the all-or-nothing full load,
 * the per-table incremental sync with savepoint isolation, and the decision
 * part of the reconciliation check.
 */
module Sync {
  import opened Wrappers
  import opened Dates
  import opened Models
  import opened Analytics
  import opened Helpers

  /** `sync_plan`: the order in which the incremental sync visits the tables. */
  const SyncPlan: seq<Table> :=
    [Film, Actor, Category, FilmActor, FilmCategory, Inventory, Rental, Payment, Customer, Store]

  /** The order in which the full load reads and transforms the tables (inventory is not read). */
  const LoadOrder: seq<Table> :=
    [Film, Actor, Category, FilmActor, FilmCategory, Store, Customer, Rental, Payment]

  /** `n` is the watermark name of some table. */
  ghost predicate IsTableName(n: string) {
    exists t :: Name(t) == n
  }

  /** A table's watermark: `state.last_synced if state else datetime(1970, 1, 1)`. */
  function MarkOrEpoch(wh: Warehouse, name: string): Stamp {
    if name in wh.syncState then wh.syncState[name] else Epoch
  }

  // ---------------------------------------------------------------- ensure_sync_state

  /**
   * The watermarks after `ensure_sync_state(names)`: every listed table has
   * one, those that had one keep it, the new ones are at the epoch.
   */
  function EnsuredMarks(marks: map<string, Stamp>, names: seq<string>): (r: map<string, Stamp>)
    ensures r.Keys == marks.Keys + set n | n in names
    ensures forall n :: n in marks ==> r[n] == marks[n]
    ensures forall n :: n in r && n !in marks ==> r[n] == Epoch
    decreases |names|
  {
    if names == [] then marks
    else
      var next := if names[0] in marks then marks else marks[names[0] := Epoch];
      assert (set n | n in names) == {names[0]} + set n | n in names[1..];
      EnsuredMarks(next, names[1..])
  }

  /** Initialising the watermarks twice is initialising them once. */
  lemma EnsuredMarksIdempotent(marks: map<string, Stamp>, names: seq<string>)
    ensures EnsuredMarks(EnsuredMarks(marks, names), names) == EnsuredMarks(marks, names)
  {
    var once := EnsuredMarks(marks, names);
    var twice := EnsuredMarks(once, names);
    assert twice.Keys == once.Keys;
    forall n | n in twice ensures twice[n] == once[n] {
    }
  }

  /** `ensure_sync_state`: adds an epoch watermark for each listed table that has none. */
  method EnsureSyncState(s: TargetSession, names: seq<string>)
    modifies s
    ensures s.State() == old(s.State()).(syncState := EnsuredMarks(old(s.syncState), names))
  {
    var i := 0;
    while i < |names|
      invariant 0 <= i <= |names|
      invariant s.State() == old(s.State()).(syncState := s.syncState)
      invariant EnsuredMarks(s.syncState, names[i..]) == EnsuredMarks(old(s.syncState), names)
    {
      if names[i] !in s.syncState {
        s.SetWatermark(names[i], Epoch);
      }
      assert names[i..][1..] == names[i + 1..];
      i := i + 1;
    }
  }

  // ---------------------------------------------------------------- queries

  /** No row occurs twice. */
  ghost predicate Distinct(rows: seq<SourceRow>) {
    forall i, j :: 0 <= i < j < |rows| ==> rows[i] != rows[j]
  }

  /** Ascending `last_update` (a row without one counts as the epoch). */
  ghost predicate SortedByStamp(rows: seq<SourceRow>) {
    forall i, j :: 0 <= i < j < |rows| ==> rows[i].LastUpdate().GetOr(Epoch) <= rows[j].LastUpdate().GetOr(Epoch)
  }

  /** `rows` is what `select(model).where(field >= since).order_by(field)` returns. */
  ghost predicate IsSelection(all: set<SourceRow>, since: Stamp, rows: seq<SourceRow>) {
    && (forall r :: r in rows <==> r in all && ChangedSince(r, since))
    && Distinct(rows)
    && SortedByStamp(rows)
  }

  /** `select(model).all()`: every row once, in an order the model leaves open. */
  method SelectAll(all: set<SourceRow>) returns (rows: seq<SourceRow>)
    ensures forall r :: r in rows <==> r in all
    ensures Distinct(rows)
    ensures |rows| == |all|
  {
    rows := [];
    var rest := all;
    while rest != {}
      invariant rest <= all
      invariant forall r :: r in rows <==> r in all - rest
      invariant Distinct(rows)
      invariant |rows| + |rest| == |all|
      decreases rest
    {
      var r :| r in rest;
      assert r !in rows;
      rows := rows + [r];
      rest := rest - {r};
    }
  }

  lemma EarliestExists(rows: set<SourceRow>)
    requires rows != {}
    ensures exists m :: m in rows && forall r :: r in rows ==> m.LastUpdate().GetOr(Epoch) <= r.LastUpdate().GetOr(Epoch)
  {
    var x :| x in rows;
    if rows != {x} {
      EarliestExists(rows - {x});
      var m :| m in rows - {x} && forall r :: r in rows - {x} ==> m.LastUpdate().GetOr(Epoch) <= r.LastUpdate().GetOr(Epoch);
      if x.LastUpdate().GetOr(Epoch) < m.LastUpdate().GetOr(Epoch) {
        assert forall r :: r in rows ==> x.LastUpdate().GetOr(Epoch) <= r.LastUpdate().GetOr(Epoch);
      } else {
        assert forall r :: r in rows ==> m.LastUpdate().GetOr(Epoch) <= r.LastUpdate().GetOr(Epoch);
      }
    } else {
      assert forall r :: r in rows ==> x.LastUpdate().GetOr(Epoch) <= r.LastUpdate().GetOr(Epoch);
    }
  }

  /** The delta query: rows changed at or after `since`, in ascending `last_update` order. */
  method SelectSince(all: set<SourceRow>, since: Stamp) returns (rows: seq<SourceRow>)
    ensures IsSelection(all, since, rows)
  {
    var wanted := set r | r in all && ChangedSince(r, since);
    var rest := wanted;
    rows := [];
    while rest != {}
      invariant rest <= wanted
      invariant forall r :: r in rows <==> r in wanted - rest
      invariant Distinct(rows) && SortedByStamp(rows)
      invariant forall i, r :: 0 <= i < |rows| && r in rest ==> rows[i].LastUpdate().GetOr(Epoch) <= r.LastUpdate().GetOr(Epoch)
      decreases rest
    {
      EarliestExists(rest);
      var m :| m in rest && forall r :: r in rest ==> m.LastUpdate().GetOr(Epoch) <= r.LastUpdate().GetOr(Epoch);
      assert m !in rows;
      rows := rows + [m];
      rest := rest - {m};
    }
  }

  // ---------------------------------------------------------------- full_load

  /**
   * What a successful full load leaves behind, relative to the store before:
   * every row of every loaded table is transformed and its records are in
   * the store, only keys those records name have changed, and each tracked
   * table's watermark is its maximal `last_update` (or the epoch).
   */
  ghost predicate FullLoadPost(src: SourceDb, before: Warehouse, after: Warehouse) {
    && (forall t, r :: t in LoadOrder && r in Rows(src, t) ==>
          && RowWrites(src, r).Ok?
          && forall w :: w in RowWrites(src, r).value ==> Lookup(after, KeyOf(w)) == Some(w))
    && (forall k :: Lookup(after, k) != Lookup(before, k) ==> exists w :: SourceWrite(src, w) && KeyOf(w) == k)
    && MarksAreLastUpdates(src, SyncPlan, after.syncState)
    && SameForeignMarks(after.syncState, before.syncState)
  }

  /** The records of a row of a table are records the source produces. */
  lemma TableRowRecords(src: SourceDb, t: Table, r: SourceRow)
    requires r in Rows(src, t) && RowWrites(src, r).Ok?
    ensures forall w :: w in RowWrites(src, r).value ==> SourceWrite(src, w)
  {
    RowsAreStored(src, t, r);
    forall w | w in RowWrites(src, r).value ensures SourceWrite(src, w) {
      assert Stored(src, r) && RowWrites(src, r).Ok? && w in RowWrites(src, r).value;
    }
  }

  /** Every record of every row in `rows` is among `ws`. */
  ghost predicate RowsWritten(src: SourceDb, rows: seq<SourceRow>, ws: seq<Write>) {
    forall r :: r in rows ==> RowWrites(src, r).Ok? && forall w :: w in RowWrites(src, r).value ==> w in ws
  }

  /** Appending the records of the next row extends what has been written. */
  lemma RowsWrittenSnoc(src: SourceDb, rows: seq<SourceRow>, i: nat, ws: seq<Write>, rw: seq<Write>)
    requires i < |rows| && RowsWritten(src, rows[..i], ws)
    requires RowWrites(src, rows[i]) == Ok(rw)
    ensures RowsWritten(src, rows[..i + 1], ws + rw)
  {
    assert rows[..i + 1] == rows[..i] + [rows[i]];
  }

  /**
   * A fault lies on one of the positions a full load of table `t` passes:
   * one of its rows, or the flush after its last row.
   */
  ghost predicate TableFaultHits(src: SourceDb, t: Table, faults: set<(Table, nat)>) {
    exists i :: i <= |Rows(src, t)| && (t, i) in faults
  }

  /**
   * The error a full load of table `t` can raise: the data-layer error of a
   * fault on one of its positions, or the lookup error of one of its rows.
   */
  ghost predicate LoadErrorOf(src: SourceDb, t: Table, faults: set<(Table, nat)>, e: SyncError) {
    || (e.DataLayer? && e.table == t && e.position <= |Rows(src, t)| && (t, e.position) in faults)
    || (e.LanguageMissing? && exists r :: r in Rows(src, t) && RowWrites(src, r) == Err(e))
  }

  /** A fault lies on the positions of one of `tables`. */
  ghost predicate LoadFaultHits(src: SourceDb, tables: seq<Table>, faults: set<(Table, nat)>) {
    exists t :: t in tables && TableFaultHits(src, t, faults)
  }

  /** Some film row cannot be transformed (its language is missing). */
  ghost predicate FilmFails(src: SourceDb) {
    exists r :: r in Rows(src, Film) && RowWrites(src, r).Err?
  }

  /** The first `i` selected rows of `t` are merged as `ws` into `before`, and no fault hit them. */
  ghost predicate LoadedPrefix(src: SourceDb, t: Table, rows: seq<SourceRow>, i: nat, faults: set<(Table, nat)>,
                               before: Warehouse, after: Warehouse, ws: seq<Write>) {
    && i <= |rows|
    && after == UpsertAll(before, ws)
    && RowsWritten(src, rows[..i], ws)
    && forall j :: 0 <= j < i ==> (t, j) !in faults
  }

  /** Merging the next row's records extends the loaded prefix by that row. */
  lemma LoadedPrefixSnoc(src: SourceDb, t: Table, rows: seq<SourceRow>, i: nat, faults: set<(Table, nat)>,
                         before: Warehouse, after: Warehouse, ws: seq<Write>, rw: seq<Write>)
    requires LoadedPrefix(src, t, rows, i, faults, before, after, ws)
    requires i < |rows| && rows[i] in Rows(src, t) && (t, i) !in faults && RowWrites(src, rows[i]) == Ok(rw)
    ensures LoadedPrefix(src, t, rows, i + 1, faults, before, UpsertAll(after, rw), ws + rw)
    ensures forall w :: w in rw ==> SourceWrite(src, w)
  {
    TableRowRecords(src, t, rows[i]);
    UpsertAllConcat(before, ws, rw);
    RowsWrittenSnoc(src, rows, i, ws, rw);
  }

  /** Every selected row loaded and the flush after them unfaulted: the whole table is loaded. */
  lemma LoadedWholeTable(src: SourceDb, t: Table, rows: seq<SourceRow>, faults: set<(Table, nat)>,
                         before: Warehouse, after: Warehouse, ws: seq<Write>)
    requires LoadedPrefix(src, t, rows, |rows|, faults, before, after, ws)
    requires (forall r :: r in rows <==> r in Rows(src, t)) && |rows| == |Rows(src, t)|
    requires (t, |rows|) !in faults
    ensures forall r :: r in Rows(src, t) ==>
      RowWrites(src, r).Ok? && forall w :: w in RowWrites(src, r).value ==> w in ws
    ensures !TableFaultHits(src, t, faults)
  {
    assert rows[..|rows|] == rows;
  }

  /**
   * Transforms and merges every row of one table; stops at the first error.
   * A fault at position `|rows|` is the flush after the table's last row.
   */
  method LoadTable(s: TargetSession, src: SourceDb, t: Table, faults: set<(Table, nat)>)
    returns (err: Option<SyncError>, ghost ws: seq<Write>)
    modifies s
    ensures err.None? ==> s.State() == UpsertAll(old(s.State()), ws)
    ensures forall w :: w in ws ==> SourceWrite(src, w)
    ensures err.None? ==> forall r :: r in Rows(src, t) ==>
      RowWrites(src, r).Ok? && forall w :: w in RowWrites(src, r).value ==> w in ws
    ensures err.None? ==> !TableFaultHits(src, t, faults)
    ensures err.Some? ==> TableFaultHits(src, t, faults) || exists r :: r in Rows(src, t) && RowWrites(src, r).Err?
    ensures err.Some? ==> LoadErrorOf(src, t, faults, err.value)
  {
    var rows := SelectAll(Rows(src, t));
    ws := [];
    err := None;
    var i := 0;
    while i < |rows|
      invariant 0 <= i <= |rows|
      invariant LoadedPrefix(src, t, rows, i, faults, old(s.State()), s.State(), ws)
      invariant forall w :: w in ws ==> SourceWrite(src, w)
    {
      if (t, i) in faults {
        err := Some(DataLayer(t, i));
        assert i <= |Rows(src, t)|;
        return;
      }
      var r := rows[i];
      ghost var mid := s.State();
      var e := UpsertRow(s, src, r);
      if e.Some? {
        err := e;
        assert r in Rows(src, t) && RowWrites(src, r) == Err(err.value);
        return;
      }
      var rw := RowWrites(src, r).value;
      LoadedPrefixSnoc(src, t, rows, i, faults, old(s.State()), mid, ws, rw);
      ws := ws + rw;
      i := i + 1;
    }
    if (t, i) in faults {
      err := Some(DataLayer(t, i));
      assert i <= |Rows(src, t)|;
      return;
    }
    LoadedWholeTable(src, t, rows, faults, old(s.State()), s.State(), ws);
  }

  /** Every table of `tables` has its maximal `last_update` (or the epoch) as watermark in `marks`. */
  ghost predicate MarksAreLastUpdates(src: SourceDb, tables: seq<Table>, marks: map<string, Stamp>) {
    forall t :: t in tables ==> Name(t) in marks && IsLastUpdate(Rows(src, t), marks[Name(t)])
  }

  /** `a` and `b` agree on every watermark that belongs to no table. */
  ghost predicate SameForeignMarks(a: map<string, Stamp>, b: map<string, Stamp>) {
    forall n :: !IsTableName(n) ==> (n in a <==> n in b) && (n in a ==> a[n] == b[n])
  }

  /** Writing a table's watermark keeps every other watermark. */
  lemma SetMarkKeepsForeign(before: map<string, Stamp>, a: map<string, Stamp>, t: Table, ts: Stamp)
    requires SameForeignMarks(a, before)
    ensures SameForeignMarks(a[Name(t) := ts], before)
  {
    forall n | !IsTableName(n) ensures n != Name(t) {
    }
  }

  /** Sets each tracked table's watermark to its maximal `last_update`, or the epoch. */
  method WriteWatermarks(s: TargetSession, src: SourceDb)
    modifies s
    ensures s.State() == old(s.State()).(syncState := s.syncState)
    ensures MarksAreLastUpdates(src, SyncPlan, s.syncState)
    ensures SameForeignMarks(s.syncState, old(s.syncState))
  {
    var i := 0;
    while i < |SyncPlan|
      invariant 0 <= i <= |SyncPlan|
      invariant s.State() == old(s.State()).(syncState := s.syncState)
      invariant MarksAreLastUpdates(src, SyncPlan[..i], s.syncState)
      invariant SameForeignMarks(s.syncState, old(s.syncState))
    {
      var t := SyncPlan[i];
      var m := GetLastUpdate(Rows(src, t));
      ghost var before := s.syncState;
      s.SetWatermark(Name(t), m);
      SetMarkKeepsForeign(old(s.syncState), before, t, m);
      forall u | u in SyncPlan[..i + 1]
        ensures Name(u) in s.syncState && IsLastUpdate(Rows(src, u), s.syncState[Name(u)])
      {
        if u != t {
          NameInjective(u, t);
          assert u in SyncPlan[..i];
        }
      }
      i := i + 1;
    }
  }

  /** Every row of every table in `tables` is transformed and its records are among `all`. */
  ghost predicate AllRowsWritten(src: SourceDb, tables: seq<Table>, all: seq<Write>) {
    forall t, r :: t in tables && r in Rows(src, t) ==>
      RowWrites(src, r).Ok? && forall w :: w in RowWrites(src, r).value ==> w in all
  }

  /** No fault on the positions of the loaded tables and of the next one: none on all of them. */
  lemma LoadFaultSnoc(src: SourceDb, tables: seq<Table>, t: Table, faults: set<(Table, nat)>)
    requires !LoadFaultHits(src, tables, faults) && !TableFaultHits(src, t, faults)
    ensures !LoadFaultHits(src, tables + [t], faults)
  {
    forall u | u in tables + [t]
      ensures !TableFaultHits(src, u, faults)
    {
      assert u in tables || u == t;
    }
  }

  /** Loading the next table of the load order extends the loaded prefix of tables. */
  lemma LoadedTablesSnoc(src: SourceDb, k: nat, faults: set<(Table, nat)>, all: seq<Write>, ws: seq<Write>)
    requires k < |LoadOrder|
    requires AllRowsWritten(src, LoadOrder[..k], all) && !LoadFaultHits(src, LoadOrder[..k], faults)
    requires forall r :: r in Rows(src, LoadOrder[k]) ==>
      RowWrites(src, r).Ok? && forall w :: w in RowWrites(src, r).value ==> w in ws
    requires !TableFaultHits(src, LoadOrder[k], faults)
    ensures AllRowsWritten(src, LoadOrder[..k + 1], all + ws)
    ensures !LoadFaultHits(src, LoadOrder[..k + 1], faults)
  {
    assert LoadOrder[..k + 1] == LoadOrder[..k] + [LoadOrder[k]];
    LoadFaultSnoc(src, LoadOrder[..k], LoadOrder[k], faults);
  }

  /** A table of the load order fails only through a fault on its positions or a film that cannot transform. */
  lemma TableFailure(src: SourceDb, k: nat, faults: set<(Table, nat)>)
    requires k < |LoadOrder|
    requires TableFaultHits(src, LoadOrder[k], faults) || exists r :: r in Rows(src, LoadOrder[k]) && RowWrites(src, r).Err?
    ensures LoadFaultHits(src, LoadOrder, faults) || FilmFails(src)
  {
    var t := LoadOrder[k];
    if !TableFaultHits(src, t, faults) {
      var r :| r in Rows(src, t) && RowWrites(src, r).Err?;
      RowsAreStored(src, t, r);
    }
  }

  /** Once every table is loaded, no fault hit and every film transformed. */
  lemma LoadedAllTables(src: SourceDb, faults: set<(Table, nat)>, all: seq<Write>)
    requires AllRowsWritten(src, LoadOrder[..|LoadOrder|], all) && !LoadFaultHits(src, LoadOrder[..|LoadOrder|], faults)
    ensures AllRowsWritten(src, LoadOrder, all) && !LoadFaultHits(src, LoadOrder, faults)
    ensures !FilmFails(src)
  {
    assert LoadOrder[..|LoadOrder|] == LoadOrder;
    assert Film in LoadOrder;
  }

  /** The body of the full-load transaction, before the watermarks: every table in load order. */
  method LoadTables(s: TargetSession, src: SourceDb, faults: set<(Table, nat)>)
    returns (err: Option<SyncError>, ghost all: seq<Write>)
    modifies s
    ensures err.None? ==> s.State() == UpsertAll(old(s.State()), all)
    ensures forall w :: w in all ==> SourceWrite(src, w)
    ensures err.None? ==> AllRowsWritten(src, LoadOrder, all)
    ensures err.None? ==> !LoadFaultHits(src, LoadOrder, faults)
    ensures err.Some? ==> LoadFaultHits(src, LoadOrder, faults) || FilmFails(src)
    ensures FilmFails(src) ==> err.Some?
    ensures err.Some? ==> exists t :: t in LoadOrder && LoadErrorOf(src, t, faults, err.value)
  {
    all := [];
    err := None;
    var k := 0;
    while k < |LoadOrder|
      invariant 0 <= k <= |LoadOrder|
      invariant s.State() == UpsertAll(old(s.State()), all)
      invariant forall w :: w in all ==> SourceWrite(src, w)
      invariant AllRowsWritten(src, LoadOrder[..k], all)
      invariant !LoadFaultHits(src, LoadOrder[..k], faults)
    {
      var t := LoadOrder[k];
      var e;
      ghost var ws;
      e, ws := LoadTable(s, src, t, faults);
      if e.Some? {
        err := e;
        TableFailure(src, k, faults);
        assert t in LoadOrder;
        return;
      }
      UpsertAllConcat(old(s.State()), all, ws);
      LoadedTablesSnoc(src, k, faults, all, ws);
      all := all + ws;
      k := k + 1;
    }
    LoadedAllTables(src, faults, all);
  }

  /** The records merged by the full load are in the store, and nothing else changed. */
  lemma LoadedStore(src: SourceDb, before: Warehouse, all: seq<Write>)
    requires forall w :: w in all ==> SourceWrite(src, w)
    requires AllRowsWritten(src, LoadOrder, all)
    ensures forall t, r :: t in LoadOrder && r in Rows(src, t) ==>
      && RowWrites(src, r).Ok?
      && forall w :: w in RowWrites(src, r).value ==> Lookup(UpsertAll(before, all), KeyOf(w)) == Some(w)
    ensures forall k :: Lookup(UpsertAll(before, all), k) != Lookup(before, k) ==>
      exists w :: SourceWrite(src, w) && KeyOf(w) == k
  {
    SourceWritesConsistent(src, all);
    forall t, r, w | t in LoadOrder && r in Rows(src, t) && w in RowWrites(src, r).value
      ensures Lookup(UpsertAll(before, all), KeyOf(w)) == Some(w)
    {
      UpsertAllPresent(before, all, w);
    }
    forall k | Lookup(UpsertAll(before, all), k) != Lookup(before, k)
      ensures exists w :: SourceWrite(src, w) && KeyOf(w) == k
    {
      if forall w :: w in all ==> KeyOf(w) != k {
        UpsertAllFrame(before, all, k);
      }
    }
  }

  /** The watermarks and the dimension and fact tables are separate. */
  lemma LookupIgnoresMarks(wh: Warehouse, marks: map<string, Stamp>, k: TargetKey)
    ensures Lookup(wh.(syncState := marks), k) == Lookup(wh, k)
  {
  }

  /** Merging the records and then writing the watermarks establishes the full-load postcondition. */
  lemma FullLoadPostHolds(src: SourceDb, before: Warehouse, all: seq<Write>, after: Warehouse)
    requires forall w :: w in all ==> SourceWrite(src, w)
    requires AllRowsWritten(src, LoadOrder, all)
    requires after == UpsertAll(before, all).(syncState := after.syncState)
    requires MarksAreLastUpdates(src, SyncPlan, after.syncState)
    requires SameForeignMarks(after.syncState, UpsertAll(before, all).syncState)
    ensures FullLoadPost(src, before, after)
  {
    LoadedStore(src, before, all);
    forall k ensures Lookup(after, k) == Lookup(UpsertAll(before, all), k) {
      LookupIgnoresMarks(UpsertAll(before, all), after.syncState, k);
    }
  }

  /**
   * `full_load`: one transaction that merges every row of every table and then
   * overwrites every tracked watermark; any error rolls all of it back and is
   * raised again.
   */
  method FullLoad(s: TargetSession, src: SourceDb, faults: set<(Table, nat)>) returns (result: Outcome<SyncError>)
    modifies s
    ensures result.Fail? ==> s.State() == old(s.State())
    ensures result.Pass? ==> FullLoadPost(src, old(s.State()), s.State())
    ensures result.Fail? <==> LoadFaultHits(src, LoadOrder, faults) || FilmFails(src)
    ensures result.Fail? ==> result.error.DataLayer? || result.error.LanguageMissing?
    ensures result.Fail? ==> exists t :: t in LoadOrder && LoadErrorOf(src, t, faults, result.error)
  {
    var snapshot := s.State();
    var err;
    ghost var all;
    err, all := LoadTables(s, src, faults);
    if err.Some? {
      s.Restore(snapshot);
      return Fail(err.value);
    }
    WriteWatermarks(s, src);
    FullLoadPostHolds(src, snapshot, all, s.State());
    result := Pass;
  }

  // ---------------------------------------------------------------- incremental

  /** What the incremental sync did with one table. */
  datatype TableStatus =
    | NoChanges                      // the delta query returned nothing
    | Advanced(mark: Stamp)          // the savepoint was released and the watermark moved to `mark`
    | RolledBack(cause: SyncError)   // a data-layer error: the savepoint was rolled back, the run goes on
    | Aborted(cause: SyncError)      // any other error: the savepoint was rolled back and the run stops

  datatype StepResult = StepResult(state: Warehouse, status: TableStatus)

  /** `max(r.last_update for r in rows if r.last_update is not None)`, `None` where Python raises. */
  function MaxStamp(rows: seq<SourceRow>): (m: Option<Stamp>)
    ensures m.None? <==> forall r :: r in rows ==> r.LastUpdate().None?
    ensures m.Some? ==> exists r :: r in rows && r.LastUpdate() == m
    ensures m.Some? ==> forall r :: r in rows && r.LastUpdate().Some? ==> r.LastUpdate().value <= m.value
  {
    if rows == [] then None
    else
      var rest := MaxStamp(rows[1..]);
      var head := rows[0].LastUpdate();
      assert forall r :: r in rows <==> r == rows[0] || r in rows[1..];
      if head.None? then rest
      else if rest.None? || rest.value < head.value then head
      else rest
  }

  /**
   * The body of the savepoint: transforms and merges `rows[i..]` in order,
   * then flushes. `(t, j)` in `faults` makes the data layer fail on the
   * `j`-th row (`j == |rows|`: at the flush).
   */
  function ApplyRows(src: SourceDb, t: Table, rows: seq<SourceRow>, faults: set<(Table, nat)>, wh: Warehouse, i: nat)
    : (r: Result<Warehouse, SyncError>)
    requires i <= |rows|
    ensures r.Ok? <==>
      && (forall j :: i <= j <= |rows| ==> (t, j) !in faults)
      && (forall j :: i <= j < |rows| ==> RowWrites(src, rows[j]).Ok?)
    ensures r.Ok? ==> r.value.syncState == wh.syncState
    ensures r.Err? && r.error.DataLayer? ==> r.error.table == t
    decreases |rows| - i
  {
    if (t, i) in faults then Err(DataLayer(t, i))
    else if i == |rows| then Ok(wh)
    else
      match RowWrites(src, rows[i])
      case Err(e) => Err(e)
      case Ok(ws) => ApplyRows(src, t, rows, faults, UpsertAll(wh, ws), i + 1)
  }

  /** A failed savepoint names either a fault that hit one of its writes or a row that cannot transform. */
  lemma {:induction false} ApplyRowsErrorSource(
    src: SourceDb, t: Table, rows: seq<SourceRow>, faults: set<(Table, nat)>, wh: Warehouse, i: nat)
    requires i <= |rows|
    requires ApplyRows(src, t, rows, faults, wh, i).Err?
    ensures var e := ApplyRows(src, t, rows, faults, wh, i).error;
      if e.DataLayer? then i <= e.position <= |rows| && (t, e.position) in faults
      else exists j :: i <= j < |rows| && RowWrites(src, rows[j]) == Err(e)
    decreases |rows| - i
  {
    if (t, i) !in faults && i < |rows| {
      match RowWrites(src, rows[i])
      case Err(e) =>
        assert ApplyRows(src, t, rows, faults, wh, i) == Err(e);
      case Ok(ws) =>
        var next := UpsertAll(wh, ws);
        assert ApplyRows(src, t, rows, faults, wh, i) == ApplyRows(src, t, rows, faults, next, i + 1);
        ApplyRowsErrorSource(src, t, rows, faults, next, i + 1);
    }
  }

  /**
   * One iteration of the incremental loop over a table whose delta is `rows`:
   * nothing to do, an aborting `max()`, a rolled-back or aborted savepoint, or
   * the merged rows with the watermark moved to the delta's maximum.
   */
  function TableStep(src: SourceDb, t: Table, rows: seq<SourceRow>, faults: set<(Table, nat)>, wh: Warehouse)
    : (r: StepResult)
    ensures r.status.NoChanges? <==> rows == []
    ensures !r.status.Advanced? ==> r.state == wh
    ensures r.status.Advanced? ==> MaxStamp(rows) == Some(r.status.mark)
    ensures r.status.Advanced? ==> r.state.syncState == wh.syncState[Name(t) := r.status.mark]
    ensures r.status.RolledBack? ==> r.status.cause.DataLayer? && r.status.cause.table == t
    ensures r.status.Aborted? ==> !r.status.cause.DataLayer?
  {
    if rows == [] then StepResult(wh, NoChanges)
    else
      match MaxStamp(rows)
      case None => StepResult(wh, Aborted(NoTimestamp(t)))
      case Some(newLast) =>
        match ApplyRows(src, t, rows, faults, wh, 0)
        case Err(e) => StepResult(wh, if e.DataLayer? then RolledBack(e) else Aborted(e))
        case Ok(after) => StepResult(after.(syncState := after.syncState[Name(t) := newLast]), Advanced(newLast))
  }

  /** One table of an incremental run: the watermark read, the delta selected, what happened. */
  datatype TableRun = TableRun(table: Table, since: Stamp, rows: seq<SourceRow>, status: TableStatus)

  /** The store after the runs, each applied to the store the previous ones left. */
  function Replay(src: SourceDb, faults: set<(Table, nat)>, wh: Warehouse, runs: seq<TableRun>): Warehouse
    decreases |runs|
  {
    if runs == [] then wh
    else
      var last := runs[|runs| - 1];
      TableStep(src, last.table, last.rows, faults, Replay(src, faults, wh, runs[..|runs| - 1])).state
  }

  /** A run that read its watermark from `wh`, selected that delta, and ended as the step says. */
  ghost predicate ValidRun(src: SourceDb, faults: set<(Table, nat)>, wh: Warehouse, run: TableRun) {
    && run.since == MarkOrEpoch(wh, Name(run.table))
    && IsSelection(Rows(src, run.table), run.since, run.rows)
    && run.status == TableStep(src, run.table, run.rows, faults, wh).status
  }

  ghost predicate ValidRuns(src: SourceDb, faults: set<(Table, nat)>, wh: Warehouse, runs: seq<TableRun>) {
    forall i :: 0 <= i < |runs| ==> ValidRun(src, faults, Replay(src, faults, wh, runs[..i]), runs[i])
  }

  /**
   * `with target_session.begin_nested()`: merges the delta inside a savepoint,
   * which is released when every row and the flush succeed and rolled back
   * otherwise.
   */
  method ApplyInSavepoint(s: TargetSession, src: SourceDb, t: Table, rows: seq<SourceRow>, faults: set<(Table, nat)>)
    returns (err: Option<SyncError>)
    modifies s
    ensures err.None? <==> ApplyRows(src, t, rows, faults, old(s.State()), 0).Ok?
    ensures err.None? ==> s.State() == ApplyRows(src, t, rows, faults, old(s.State()), 0).value
    ensures err.Some? ==> ApplyRows(src, t, rows, faults, old(s.State()), 0) == Err(err.value)
    ensures err.Some? ==> s.State() == old(s.State())
  {
    var snapshot := s.State();
    err := None;
    var i := 0;
    while i < |rows| && (t, i) !in faults && err.None?
      invariant 0 <= i <= |rows|
      invariant err.None? ==> ApplyRows(src, t, rows, faults, snapshot, 0) == ApplyRows(src, t, rows, faults, s.State(), i)
      invariant err.Some? ==> ApplyRows(src, t, rows, faults, snapshot, 0) == Err(err.value)
      decreases |rows| - i, if err.None? then 1 else 0
    {
      var e := UpsertRow(s, src, rows[i]);
      if e.Some? {
        err := e;
      } else {
        i := i + 1;
      }
    }
    if err.None? && (t, i) in faults {
      err := Some(DataLayer(t, i));
    }
    if err.Some? {
      s.Restore(snapshot);
    }
  }

  /** The `if not rows` test and the `try` block of one table: the step applied to the store. */
  method SyncDelta(s: TargetSession, src: SourceDb, t: Table, rows: seq<SourceRow>, faults: set<(Table, nat)>)
    returns (status: TableStatus)
    modifies s
    ensures StepResult(s.State(), status) == TableStep(src, t, rows, faults, old(s.State()))
  {
    if rows == [] {
      return NoChanges;
    }
    var newLast := MaxStamp(rows);
    if newLast.None? {
      return Aborted(NoTimestamp(t));
    }
    var err := ApplyInSavepoint(s, src, t, rows, faults);
    if err.Some? {
      status := if err.value.DataLayer? then RolledBack(err.value) else Aborted(err.value);
    } else {
      s.SetWatermark(Name(t), newLast.value);
      status := Advanced(newLast.value);
    }
  }

  /**
   * One table of `incremental`: read the watermark, select the delta, apply it.
   * The two reads come before the `try`, so a data-layer error in them (a table
   * of `readFaults`) is not caught: nothing is written and the run ends.
   */
  method SyncTable(s: TargetSession, src: SourceDb, t: Table, faults: set<(Table, nat)>, readFaults: set<Table>)
    returns (run: Result<TableRun, SyncError>)
    modifies s
    ensures run.Err? <==> t in readFaults
    ensures run.Err? ==> run.error == ReadFailed(t) && s.State() == old(s.State())
    ensures run.Ok? ==> run.value.table == t
    ensures run.Ok? ==> ValidRun(src, faults, old(s.State()), run.value)
    ensures run.Ok? ==> s.State() == TableStep(src, t, run.value.rows, faults, old(s.State())).state
  {
    if t in readFaults {
      return Err(ReadFailed(t));
    }
    var since := if Name(t) in s.syncState then s.syncState[Name(t)] else Epoch;
    var rows := SelectSince(Rows(src, t), since);
    var status := SyncDelta(s, src, t, rows, faults);
    run := Ok(TableRun(t, since, rows, status));
  }

  /** Appending a run that starts from the replayed store extends a valid sequence of runs. */
  lemma ValidRunsSnoc(src: SourceDb, faults: set<(Table, nat)>, wh: Warehouse, runs: seq<TableRun>, run: TableRun)
    requires ValidRuns(src, faults, wh, runs)
    requires ValidRun(src, faults, Replay(src, faults, wh, runs), run)
    ensures ValidRuns(src, faults, wh, runs + [run])
    ensures Replay(src, faults, wh, runs + [run]) == TableStep(src, run.table, run.rows, faults, Replay(src, faults, wh, runs)).state
  {
    var longer := runs + [run];
    assert longer[..|runs|] == runs;
    forall i | 0 <= i < |runs| ensures longer[..i] == runs[..i] {
    }
  }

  /** The runs visit the first tables of the plan, in plan order, and each of them was read. */
  ghost predicate FollowsPlan(runs: seq<TableRun>, readFaults: set<Table>) {
    |runs| <= |SyncPlan| && forall i :: 0 <= i < |runs| ==> runs[i].table == SyncPlan[i] && runs[i].table !in readFaults
  }

  /** No run before position `n` raised an aborting error. */
  ghost predicate NoneAbortedBefore(runs: seq<TableRun>, n: int) {
    forall i :: 0 <= i < |runs| && i < n ==> !runs[i].status.Aborted?
  }

  /** The last run, if any, raised an aborting error. */
  predicate EndsAborted(runs: seq<TableRun>) {
    runs != [] && runs[|runs| - 1].status.Aborted?
  }

  /** Appending the run of the next planned table keeps the plan order and the abort bookkeeping. */
  lemma PlanSnoc(runs: seq<TableRun>, readFaults: set<Table>, run: TableRun)
    requires FollowsPlan(runs, readFaults) && |runs| < |SyncPlan| && run.table == SyncPlan[|runs|]
    requires run.table !in readFaults
    requires NoneAbortedBefore(runs, |runs|)
    ensures FollowsPlan(runs + [run], readFaults)
    ensures NoneAbortedBefore(runs + [run], |runs|)
  {
  }

  /** The run stopped before table `|runs|` of the plan because reading that table failed. */
  predicate StoppedByRead(runs: seq<TableRun>, readFaults: set<Table>) {
    |runs| < |SyncPlan| && SyncPlan[|runs|] in readFaults
  }

  /**
   * The `for` loop of `incremental`: every table of the plan in order, until
   * a table aborts or the reads of the next table fail (`stopped`).
   */
  method RunPlan(s: TargetSession, src: SourceDb, faults: set<(Table, nat)>, readFaults: set<Table>)
    returns (runs: seq<TableRun>, stopped: bool)
    modifies s
    ensures FollowsPlan(runs, readFaults)
    ensures ValidRuns(src, faults, old(s.State()), runs)
    ensures s.State() == Replay(src, faults, old(s.State()), runs)
    ensures NoneAbortedBefore(runs, |runs| - 1)
    ensures stopped ==> !EndsAborted(runs) && StoppedByRead(runs, readFaults)
    ensures !stopped ==> |runs| == |SyncPlan| || EndsAborted(runs)
  {
    runs := [];
    stopped := false;
    while |runs| < |SyncPlan| && !EndsAborted(runs) && !stopped
      invariant FollowsPlan(runs, readFaults)
      invariant ValidRuns(src, faults, old(s.State()), runs)
      invariant s.State() == Replay(src, faults, old(s.State()), runs)
      invariant NoneAbortedBefore(runs, |runs| - 1)
      invariant stopped ==> !EndsAborted(runs) && StoppedByRead(runs, readFaults)
      decreases |SyncPlan| - |runs|, if stopped then 0 else 1
    {
      var next := SyncTable(s, src, SyncPlan[|runs|], faults, readFaults);
      if next.Err? {
        stopped := true;
      } else {
        var run := next.value;
        ValidRunsSnoc(src, faults, old(s.State()), runs, run);
        PlanSnoc(runs, readFaults, run);
        runs := runs + [run];
      }
    }
  }

  /**
   * `incremental`: every table of the plan in order; a rolled-back table does
   * not stop the run, an aborting error ends it and is raised again, and so
   * does a failed read of a table's watermark or delta.
   */
  method Incremental(s: TargetSession, src: SourceDb, faults: set<(Table, nat)>, readFaults: set<Table>)
    returns (runs: seq<TableRun>, result: Outcome<SyncError>)
    modifies s
    ensures |runs| <= |SyncPlan|
    ensures forall i :: 0 <= i < |runs| ==> runs[i].table == SyncPlan[i] && runs[i].table !in readFaults
    ensures ValidRuns(src, faults, old(s.State()), runs)
    ensures s.State() == Replay(src, faults, old(s.State()), runs)
    ensures forall i :: 0 <= i < |runs| - 1 ==> !runs[i].status.Aborted?
    ensures |runs| < |SyncPlan| ==> EndsAborted(runs) || StoppedByRead(runs, readFaults)
    ensures result.Pass? <==> |runs| == |SyncPlan| && forall i :: 0 <= i < |runs| ==> !runs[i].status.Aborted?
    ensures result.Fail? && EndsAborted(runs) ==> runs[|runs| - 1].status == Aborted(result.error)
    ensures result.Fail? && !EndsAborted(runs) ==> StoppedByRead(runs, readFaults) && result.error == ReadFailed(SyncPlan[|runs|])
  {
    var stopped;
    runs, stopped := RunPlan(s, src, faults, readFaults);
    if stopped {
      result := Fail(ReadFailed(SyncPlan[|runs|]));
    } else if EndsAborted(runs) {
      result := Fail(runs[|runs| - 1].status.cause);
    } else {
      result := Pass;
    }
  }

  // ---------------------------------------------------------------- validate

  /** The aggregates `validate` reads from both databases over the reporting window. */
  datatype Aggregates = Aggregates(
    sourceFilms: nat, targetFilms: nat,
    sourceRentals: nat, targetRentals: nat,
    sourcePaymentTotal: real, targetPaymentTotal: real)

  /** A reconciliation problem, in the order `validate` reports them. */
  datatype Problem =
    | FilmCountDrift(source: nat, target: nat)
    | RentalCountDrift(days: int)
    | PaymentTotalDrift(days: int)

  function Rank(p: Problem): nat {
    match p
    case FilmCountDrift(_, _) => 0
    case RentalCountDrift(_) => 1
    case PaymentTotalDrift(_) => 2
  }

  /**
   * `validate`: a check fails when its percentage drift exceeds the
   * threshold; the run is consistent exactly when no check fails.
   */
  method Validate(agg: Aggregates, days: int, threshold: real) returns (ok: bool, problems: seq<Problem>)
    ensures ok <==> problems == []
    ensures FilmCountDrift(agg.sourceFilms, agg.targetFilms) in problems <==>
      PctDiff(agg.sourceFilms as real, agg.targetFilms as real) > threshold
    ensures RentalCountDrift(days) in problems <==>
      PctDiff(agg.sourceRentals as real, agg.targetRentals as real) > threshold
    ensures PaymentTotalDrift(days) in problems <==>
      PctDiff(agg.sourcePaymentTotal, agg.targetPaymentTotal) > threshold
    ensures forall p :: p in problems ==> p == FilmCountDrift(agg.sourceFilms, agg.targetFilms) || p == RentalCountDrift(days) || p == PaymentTotalDrift(days)
    ensures forall i, j :: 0 <= i < j < |problems| ==> Rank(problems[i]) < Rank(problems[j])
  {
    problems := [];
    if PctDiff(agg.sourceFilms as real, agg.targetFilms as real) > threshold {
      problems := problems + [FilmCountDrift(agg.sourceFilms, agg.targetFilms)];
    }
    if PctDiff(agg.sourceRentals as real, agg.targetRentals as real) > threshold {
      problems := problems + [RentalCountDrift(days)];
    }
    if PctDiff(agg.sourcePaymentTotal, agg.targetPaymentTotal) > threshold {
      problems := problems + [PaymentTotalDrift(days)];
    }
    ok := problems == [];
  }
}

=== FILE: sync_properties.dfy ===
/**
 * What the orchestrators guarantee across calls: re-running the full load
 * changes nothing, a table's outcome in an incremental run depends only on
 * that table, every applied delta ends up in the store, watermarks never move
 * backwards, and the inventory table writes no analytics rows.
 */
module SyncProperties {
  import opened Wrappers
  import opened Models
  import opened Analytics
  import opened Helpers
  import opened Sync

  // ---------------------------------------------------------------- full load

  lemma TablePlanned(t: Table)
    ensures t in SyncPlan
  {
    match t
    case Film => assert SyncPlan[0] == t;
    case Actor => assert SyncPlan[1] == t;
    case Category => assert SyncPlan[2] == t;
    case FilmActor => assert SyncPlan[3] == t;
    case FilmCategory => assert SyncPlan[4] == t;
    case Inventory => assert SyncPlan[5] == t;
    case Rental => assert SyncPlan[6] == t;
    case Payment => assert SyncPlan[7] == t;
    case Customer => assert SyncPlan[8] == t;
    case Store => assert SyncPlan[9] == t;
  }

  /** Every record a source row produces comes from a table the full load reads. */
  lemma SourceWriteIsLoaded(src: SourceDb, w: Write)
    requires SourceWrite(src, w)
    ensures exists t, r :: t in LoadOrder && r in Rows(src, t) && RowWrites(src, r).Ok? && w in RowWrites(src, r).value
  {
    var r :| Stored(src, r) && RowWrites(src, r).Ok? && w in RowWrites(src, r).value;
    var t := r.TableOf();
    RowsAreStored(src, t, r);
    LoadOrderCovers(t);
    assert RowWrites(src, r).value != [];
  }

  /** The full load reads every synced table except inventory. */
  lemma LoadOrderCovers(t: Table)
    ensures t in LoadOrder <==> t != Inventory
  {
    match t
    case Film => assert LoadOrder[0] == t;
    case Actor => assert LoadOrder[1] == t;
    case Category => assert LoadOrder[2] == t;
    case FilmActor => assert LoadOrder[3] == t;
    case FilmCategory => assert LoadOrder[4] == t;
    case Store => assert LoadOrder[5] == t;
    case Customer => assert LoadOrder[6] == t;
    case Rental => assert LoadOrder[7] == t;
    case Payment => assert LoadOrder[8] == t;
    case Inventory =>
  }

  /** Running the full load a second time on the same source leaves the store as the first run left it. */
  lemma FullLoadIdempotent(src: SourceDb, first: Warehouse, once: Warehouse, twice: Warehouse)
    requires FullLoadPost(src, first, once)
    requires FullLoadPost(src, once, twice)
    ensures twice == once
  {
    forall k ensures Lookup(twice, k) == Lookup(once, k) {
      if Lookup(twice, k) != Lookup(once, k) {
        var w :| SourceWrite(src, w) && KeyOf(w) == k;
        SourceWriteIsLoaded(src, w);
        assert false;
      }
    }
    forall n | n in twice.syncState || n in once.syncState
      ensures n in twice.syncState && n in once.syncState && twice.syncState[n] == once.syncState[n]
    {
      if IsTableName(n) {
        var t :| Name(t) == n;
        TablePlanned(t);
        IsLastUpdateUnique(Rows(src, t), twice.syncState[n], once.syncState[n]);
      }
    }
    assert twice.syncState == once.syncState;
    Extensionality(twice, once);
  }

  // ---------------------------------------------------------------- one table

  /** The watermark a delta moves to is its last row's `last_update`, never below the old watermark. */
  lemma MaxStampOfSelection(all: set<SourceRow>, since: Stamp, rows: seq<SourceRow>)
    requires IsSelection(all, since, rows)
    requires rows != []
    ensures MaxStamp(rows) == rows[|rows| - 1].LastUpdate()
    ensures MaxStamp(rows).Some? && MaxStamp(rows).value >= since
  {
    var last := rows[|rows| - 1];
    assert last in rows;
    assert ChangedSince(last, since);
    SortedMaxIsLast(rows);
  }

  /** In rows sorted by `last_update`, a stamped last row carries the maximum. */
  lemma {:induction false} SortedMaxIsLast(rows: seq<SourceRow>)
    requires SortedByStamp(rows)
    requires rows != [] && rows[|rows| - 1].LastUpdate().Some?
    ensures MaxStamp(rows) == rows[|rows| - 1].LastUpdate()
    decreases |rows|
  {
    if |rows| > 1 {
      var tail := rows[1..];
      assert tail[|tail| - 1] == rows[|rows| - 1];
      assert SortedByStamp(tail) by {
        forall i, j | 0 <= i < j < |tail| ensures tail[i].LastUpdate().GetOr(Epoch) <= tail[j].LastUpdate().GetOr(Epoch) {
          assert tail[i] == rows[i + 1] && tail[j] == rows[j + 1];
        }
      }
      SortedMaxIsLast(tail);
      assert rows[0].LastUpdate().GetOr(Epoch) <= rows[|rows| - 1].LastUpdate().GetOr(Epoch);
    }
  }

  /** Whether a table's savepoint succeeds, and with which error it fails, does not depend on the store. */
  lemma {:induction false} ApplyRowsIgnoresState(
    src: SourceDb, t: Table, rows: seq<SourceRow>, faults: set<(Table, nat)>, a: Warehouse, b: Warehouse, i: nat)
    requires i <= |rows|
    ensures ApplyRows(src, t, rows, faults, a, i).Ok? == ApplyRows(src, t, rows, faults, b, i).Ok?
    ensures ApplyRows(src, t, rows, faults, a, i).Err? ==>
      ApplyRows(src, t, rows, faults, a, i).error == ApplyRows(src, t, rows, faults, b, i).error
    decreases |rows| - i
  {
    if (t, i) !in faults && i < |rows| && RowWrites(src, rows[i]).Ok? {
      var ws := RowWrites(src, rows[i]).value;
      ApplyRowsIgnoresState(src, t, rows, faults, UpsertAll(a, ws), UpsertAll(b, ws), i + 1);
    }
  }

  /** A table's outcome is decided by its own delta and faults, whatever earlier tables did to the store. */
  lemma StepStatusIgnoresState(src: SourceDb, t: Table, rows: seq<SourceRow>, faults: set<(Table, nat)>, a: Warehouse, b: Warehouse)
    ensures TableStep(src, t, rows, faults, a).status == TableStep(src, t, rows, faults, b).status
  {
    ApplyRowsIgnoresState(src, t, rows, faults, a, b, 0);
  }

  /** A selected delta advances exactly when it is not empty, no write fails and every row transforms. */
  lemma StepAdvancesIff(src: SourceDb, t: Table, since: Stamp, rows: seq<SourceRow>, faults: set<(Table, nat)>, wh: Warehouse)
    requires IsSelection(Rows(src, t), since, rows)
    ensures TableStep(src, t, rows, faults, wh).status.Advanced? <==>
      && rows != []
      && (forall j :: 0 <= j <= |rows| ==> (t, j) !in faults)
      && (forall r :: r in rows ==> RowWrites(src, r).Ok?)
  {
    if rows != [] {
      MaxStampOfSelection(Rows(src, t), since, rows);
      assert TableStep(src, t, rows, faults, wh).status.Advanced? <==> ApplyRows(src, t, rows, faults, wh, 0).Ok?;
    }
    if (forall j :: 0 <= j < |rows| ==> RowWrites(src, rows[j]).Ok?) {
      forall r | r in rows ensures RowWrites(src, r).Ok? {
        var j :| 0 <= j < |rows| && rows[j] == r;
      }
    }
  }

  /** The records `rows[i..]` produce, in order. */
  function FlatFrom(src: SourceDb, rows: seq<SourceRow>, i: nat): seq<Write>
    requires i <= |rows|
    decreases |rows| - i
  {
    if i == |rows| then []
    else
      (match RowWrites(src, rows[i]) case Ok(ws) => ws case Err(_) => []) + FlatFrom(src, rows, i + 1)
  }

  /** A released savepoint holds exactly the delta's records merged in order. */
  lemma {:induction false} ApplyRowsMerges(
    src: SourceDb, t: Table, rows: seq<SourceRow>, faults: set<(Table, nat)>, wh: Warehouse, i: nat)
    requires i <= |rows|
    requires ApplyRows(src, t, rows, faults, wh, i).Ok?
    ensures ApplyRows(src, t, rows, faults, wh, i).value == UpsertAll(wh, FlatFrom(src, rows, i))
    decreases |rows| - i
  {
    if i < |rows| {
      var ws := RowWrites(src, rows[i]).value;
      ApplyRowsMerges(src, t, rows, faults, UpsertAll(wh, ws), i + 1);
      UpsertAllConcat(wh, ws, FlatFrom(src, rows, i + 1));
    }
  }

  /** The delta's records are source records, and every record of every row is among them. */
  lemma {:induction false} FlatFromRecords(src: SourceDb, rows: seq<SourceRow>, i: nat)
    requires i <= |rows|
    requires forall j :: i <= j < |rows| ==> Stored(src, rows[j])
    ensures forall w :: w in FlatFrom(src, rows, i) ==> SourceWrite(src, w)
    ensures forall j, w :: i <= j < |rows| && RowWrites(src, rows[j]).Ok? && w in RowWrites(src, rows[j]).value ==>
      w in FlatFrom(src, rows, i)
    decreases |rows| - i
  {
    if i < |rows| {
      FlatFromRecords(src, rows, i + 1);
      var r := rows[i];
      var head := match RowWrites(src, r) case Ok(ws) => ws case Err(_) => [];
      var rest := FlatFrom(src, rows, i + 1);
      assert FlatFrom(src, rows, i) == head + rest;
      forall w | w in head + rest ensures SourceWrite(src, w) {
        if w in head {
          assert Stored(src, r) && RowWrites(src, r).Ok? && w in RowWrites(src, r).value;
        }
      }
      forall j, w | i <= j < |rows| && RowWrites(src, rows[j]).Ok? && w in RowWrites(src, rows[j]).value
        ensures w in head + rest
      {
        if j == i {
          assert w in head;
        } else {
          assert w in rest;
        }
      }
    }
  }

  /** Every row the delta selected is stored in the source. */
  lemma SelectionStored(src: SourceDb, t: Table, since: Stamp, rows: seq<SourceRow>)
    requires IsSelection(Rows(src, t), since, rows)
    ensures forall j :: 0 <= j < |rows| ==> Stored(src, rows[j])
  {
    forall j | 0 <= j < |rows| ensures Stored(src, rows[j]) {
      RowsAreStored(src, t, rows[j]);
    }
  }

  /** After a table advances, every record of every row of its delta is in the store. */
  lemma StepWritesPresent(src: SourceDb, t: Table, since: Stamp, rows: seq<SourceRow>, faults: set<(Table, nat)>,
                          wh: Warehouse, x: SourceRow, w: Write)
    requires IsSelection(Rows(src, t), since, rows)
    requires TableStep(src, t, rows, faults, wh).status.Advanced?
    requires x in rows && RowWrites(src, x).Ok? && w in RowWrites(src, x).value
    ensures Lookup(TableStep(src, t, rows, faults, wh).state, KeyOf(w)) == Some(w)
  {
    SelectionStored(src, t, since, rows);
    FlatFromRecords(src, rows, 0);
    ApplyRowsMerges(src, t, rows, faults, wh, 0);
    var flat := FlatFrom(src, rows, 0);
    SourceWritesConsistent(src, flat);
    UpsertAllPresent(wh, flat, w);
    var after := ApplyRows(src, t, rows, faults, wh, 0).value;
    LookupIgnoresMarks(after, after.syncState[Name(t) := TableStep(src, t, rows, faults, wh).status.mark], KeyOf(w));
  }

  /** A table step changes a key only to a record some source row produces. */
  lemma StepChangesAreSourceWrites(src: SourceDb, t: Table, since: Stamp, rows: seq<SourceRow>, faults: set<(Table, nat)>,
                                   wh: Warehouse, k: TargetKey)
    requires IsSelection(Rows(src, t), since, rows)
    ensures var now := Lookup(TableStep(src, t, rows, faults, wh).state, k);
      now == Lookup(wh, k) || exists w :: SourceWrite(src, w) && KeyOf(w) == k && now == Some(w)
  {
    var step := TableStep(src, t, rows, faults, wh);
    if step.status.Advanced? {
      SelectionStored(src, t, since, rows);
      FlatFromRecords(src, rows, 0);
      ApplyRowsMerges(src, t, rows, faults, wh, 0);
      var flat := FlatFrom(src, rows, 0);
      var after := ApplyRows(src, t, rows, faults, wh, 0).value;
      LookupIgnoresMarks(after, step.state.syncState, k);
      if w :| w in flat && KeyOf(w) == k {
        SourceWritesConsistent(src, flat);
        UpsertAllPresent(wh, flat, w);
      } else {
        UpsertAllFrame(wh, flat, k);
      }
    }
  }

  /** Inventory rows produce no records. */
  lemma {:induction false} InventoryRecordsEmpty(src: SourceDb, rows: seq<SourceRow>, i: nat)
    requires i <= |rows|
    requires forall j :: i <= j < |rows| ==> rows[j].InventoryR?
    ensures FlatFrom(src, rows, i) == []
    decreases |rows| - i
  {
    if i < |rows| {
      InventoryRecordsEmpty(src, rows, i + 1);
      assert RowWrites(src, rows[i]) == Ok([]);
    }
  }

  /** Syncing the inventory table writes no analytics rows: at most its watermark moves. */
  lemma InventoryStepWritesNothing(src: SourceDb, since: Stamp, rows: seq<SourceRow>, faults: set<(Table, nat)>,
                                   wh: Warehouse, k: TargetKey)
    requires IsSelection(Rows(src, Inventory), since, rows)
    ensures Lookup(TableStep(src, Inventory, rows, faults, wh).state, k) == Lookup(wh, k)
  {
    var step := TableStep(src, Inventory, rows, faults, wh);
    if step.status.Advanced? {
      forall j | 0 <= j < |rows| ensures rows[j].InventoryR? {
        RowsAreStored(src, Inventory, rows[j]);
      }
      InventoryRecordsEmpty(src, rows, 0);
      ApplyRowsMerges(src, Inventory, rows, faults, wh, 0);
      var after := ApplyRows(src, Inventory, rows, faults, wh, 0).value;
      LookupIgnoresMarks(after, step.state.syncState, k);
    }
  }

  // ---------------------------------------------------------------- a whole incremental run

  lemma ReplayPrefixStep(src: SourceDb, faults: set<(Table, nat)>, wh: Warehouse, runs: seq<TableRun>, n: nat)
    requires n < |runs|
    ensures Replay(src, faults, wh, runs[..n + 1]) ==
      TableStep(src, runs[n].table, runs[n].rows, faults, Replay(src, faults, wh, runs[..n])).state
  {
    assert runs[..n + 1][..n] == runs[..n];
    assert runs[..n + 1][n] == runs[n];
  }

  lemma ValidRunsPrefix(src: SourceDb, faults: set<(Table, nat)>, wh: Warehouse, runs: seq<TableRun>, n: nat)
    requires ValidRuns(src, faults, wh, runs)
    requires n <= |runs|
    ensures ValidRuns(src, faults, wh, runs[..n])
  {
    forall i | 0 <= i < n ensures runs[..n][..i] == runs[..i] {
    }
  }

  /** In an incremental run, a table advances exactly when its delta is not empty, no write fails and every row transforms. */
  lemma RunAdvancesIff(src: SourceDb, faults: set<(Table, nat)>, wh: Warehouse, runs: seq<TableRun>, i: nat)
    requires ValidRuns(src, faults, wh, runs)
    requires i < |runs|
    ensures runs[i].status.Advanced? <==>
      && runs[i].rows != []
      && (forall j :: 0 <= j <= |runs[i].rows| ==> (runs[i].table, j) !in faults)
      && (forall r :: r in runs[i].rows ==> RowWrites(src, r).Ok?)
  {
    var run := runs[i];
    StepAdvancesIff(src, run.table, run.since, run.rows, faults, Replay(src, faults, wh, runs[..i]));
  }

  /** A record in the store after run `n` stays there through the later tables. */
  lemma {:induction false} RecordKept(src: SourceDb, faults: set<(Table, nat)>, wh: Warehouse, runs: seq<TableRun>, n: nat, w: Write)
    requires ValidRuns(src, faults, wh, runs)
    requires n <= |runs|
    requires SourceWrite(src, w)
    requires Lookup(Replay(src, faults, wh, runs[..n]), KeyOf(w)) == Some(w)
    ensures Lookup(Replay(src, faults, wh, runs), KeyOf(w)) == Some(w)
    decreases |runs| - n
  {
    if n == |runs| {
      assert runs[..n] == runs;
    } else {
      var run := runs[n];
      var before := Replay(src, faults, wh, runs[..n]);
      ReplayPrefixStep(src, faults, wh, runs, n);
      StepChangesAreSourceWrites(src, run.table, run.since, run.rows, faults, before, KeyOf(w));
      var now := Lookup(Replay(src, faults, wh, runs[..n + 1]), KeyOf(w));
      if now != Some(w) {
        var v :| SourceWrite(src, v) && KeyOf(v) == KeyOf(w) && now == Some(v);
        SourceWritesAgree(src, v, w);
      }
      RecordKept(src, faults, wh, runs, n + 1, w);
    }
  }

  /** Every record of every row of an advanced table's delta is in the store when the run ends. */
  lemma DeltaApplied(src: SourceDb, faults: set<(Table, nat)>, wh: Warehouse, runs: seq<TableRun>, i: nat, x: SourceRow, w: Write)
    requires ValidRuns(src, faults, wh, runs)
    requires i < |runs| && runs[i].status.Advanced?
    requires x in runs[i].rows && RowWrites(src, x).Ok? && w in RowWrites(src, x).value
    ensures Lookup(Replay(src, faults, wh, runs), KeyOf(w)) == Some(w)
  {
    var run := runs[i];
    var before := Replay(src, faults, wh, runs[..i]);
    StepWritesPresent(src, run.table, run.since, run.rows, faults, before, x, w);
    ReplayPrefixStep(src, faults, wh, runs, i);
    RowsAreStored(src, run.table, x);
    assert SourceWrite(src, w);
    RecordKept(src, faults, wh, runs, i + 1, w);
  }

  /** An incremental run changes a key only to a record some source row produces. */
  lemma {:induction false} RunChangesAreSourceWrites(src: SourceDb, faults: set<(Table, nat)>, wh: Warehouse, runs: seq<TableRun>, k: TargetKey)
    requires ValidRuns(src, faults, wh, runs)
    ensures var now := Lookup(Replay(src, faults, wh, runs), k);
      now == Lookup(wh, k) || exists w :: SourceWrite(src, w) && KeyOf(w) == k && now == Some(w)
    decreases |runs|
  {
    if runs != [] {
      var n := |runs| - 1;
      ValidRunsPrefix(src, faults, wh, runs, n);
      RunChangesAreSourceWrites(src, faults, wh, runs[..n], k);
      var run := runs[n];
      StepChangesAreSourceWrites(src, run.table, run.since, run.rows, faults, Replay(src, faults, wh, runs[..n]), k);
    }
  }

  /** No watermark ever moves backwards during an incremental run. */
  lemma {:induction false} MarksNeverDecrease(src: SourceDb, faults: set<(Table, nat)>, wh: Warehouse, runs: seq<TableRun>, name: string)
    requires ValidRuns(src, faults, wh, runs)
    ensures MarkOrEpoch(Replay(src, faults, wh, runs), name) >= MarkOrEpoch(wh, name)
    decreases |runs|
  {
    if runs != [] {
      var n := |runs| - 1;
      ValidRunsPrefix(src, faults, wh, runs, n);
      MarksNeverDecrease(src, faults, wh, runs[..n], name);
      var run := runs[n];
      if run.rows != [] {
        MaxStampOfSelection(Rows(src, run.table), run.since, run.rows);
      }
    }
  }

  /** Runs of other tables leave a table's watermark alone. */
  lemma {:induction false} MarkUntouched(src: SourceDb, faults: set<(Table, nat)>, wh: Warehouse, runs: seq<TableRun>, m: nat, t: Table)
    requires m <= |runs|
    requires forall i :: m <= i < |runs| ==> runs[i].table != t
    ensures MarkOrEpoch(Replay(src, faults, wh, runs), Name(t)) == MarkOrEpoch(Replay(src, faults, wh, runs[..m]), Name(t))
    decreases |runs|
  {
    if |runs| == m {
      assert runs[..m] == runs;
    } else {
      var n := |runs| - 1;
      assert runs[..n][..m] == runs[..m];
      MarkUntouched(src, faults, wh, runs[..n], m, t);
      LastRunKeepsMark(src, faults, wh, runs, t);
    }
  }

  /** The last run, when it is another table's, leaves a table's watermark alone. */
  lemma LastRunKeepsMark(src: SourceDb, faults: set<(Table, nat)>, wh: Warehouse, runs: seq<TableRun>, t: Table)
    requires runs != [] && runs[|runs| - 1].table != t
    ensures MarkOrEpoch(Replay(src, faults, wh, runs), Name(t)) == MarkOrEpoch(Replay(src, faults, wh, runs[..|runs| - 1]), Name(t))
  {
    var last := runs[|runs| - 1];
    NameInjective(last.table, t);
  }

  /** When each table is visited once, a table's delta is measured from the watermark it had when the run started. */
  lemma RunStartMark(src: SourceDb, faults: set<(Table, nat)>, wh: Warehouse, runs: seq<TableRun>, i: nat)
    requires ValidRuns(src, faults, wh, runs)
    requires forall a, b :: 0 <= a < b < |runs| ==> runs[a].table != runs[b].table
    requires i < |runs|
    ensures runs[i].since == MarkOrEpoch(wh, Name(runs[i].table))
  {
    var before := runs[..i];
    MarkUntouched(src, faults, wh, before, 0, runs[i].table);
    assert before[..0] == [];
    assert ValidRun(src, faults, Replay(src, faults, wh, before), runs[i]);
  }

  /**
   * When each table is visited once, a table's watermark at the end of the run
   * is its delta's maximum if it advanced, and unchanged otherwise.
   */
  lemma RunEndMark(src: SourceDb, faults: set<(Table, nat)>, wh: Warehouse, runs: seq<TableRun>, i: nat)
    requires ValidRuns(src, faults, wh, runs)
    requires forall a, b :: 0 <= a < b < |runs| ==> runs[a].table != runs[b].table
    requires i < |runs|
    ensures MarkOrEpoch(Replay(src, faults, wh, runs), Name(runs[i].table)) ==
      if runs[i].status.Advanced? then runs[i].status.mark else runs[i].since
  {
    var run := runs[i];
    MarkUntouched(src, faults, wh, runs, i + 1, run.table);
    ReplayPrefixStep(src, faults, wh, runs, i);
    assert ValidRun(src, faults, Replay(src, faults, wh, runs[..i]), run);
  }

  /** An advanced table's new watermark is at least its old one and at least every delta row's `last_update`. */
  lemma AdvancedMarkBounds(src: SourceDb, faults: set<(Table, nat)>, wh: Warehouse, run: TableRun)
    requires ValidRun(src, faults, wh, run)
    requires run.status.Advanced?
    ensures run.status.mark >= run.since
    ensures forall r :: r in run.rows ==> r.LastUpdate().Some? && r.LastUpdate().value <= run.status.mark
  {
    MaxStampOfSelection(Rows(src, run.table), run.since, run.rows);
  }

  /** The tables of the plan are distinct, so an incremental run visits each once. */
  lemma PlanDistinct()
    ensures forall a, b :: 0 <= a < b < |SyncPlan| ==> SyncPlan[a] != SyncPlan[b]
  {
  }

  /** A source row changed at or after a table's watermark reaches the store when that table advances. */
  lemma ChangedRowApplied(src: SourceDb, faults: set<(Table, nat)>, wh: Warehouse, runs: seq<TableRun>, i: nat, x: SourceRow, w: Write)
    requires ValidRuns(src, faults, wh, runs)
    requires i < |runs| && runs[i].status.Advanced?
    requires x in Rows(src, runs[i].table) && ChangedSince(x, runs[i].since)
    requires RowWrites(src, x).Ok? && w in RowWrites(src, x).value
    ensures Lookup(Replay(src, faults, wh, runs), KeyOf(w)) == Some(w)
  {
    DeltaApplied(src, faults, wh, runs, i, x, w);
  }

  /**
   * An edited film whose `last_update` is at or after the film watermark is
   * seen under its old surrogate key with its new title once the film table
   * advances: the record is replaced, not duplicated.
   */
  lemma EditedFilmReplaced(src: SourceDb, faults: set<(Table, nat)>, wh: Warehouse, runs: seq<TableRun>, i: nat, id: Id)
    requires ValidRuns(src, faults, wh, runs)
    requires i < |runs| && runs[i].table == Film && runs[i].status.Advanced?
    requires id in src.films && ChangedSince(FilmR(id, src.films[id]), runs[i].since)
    ensures exists f :: && Lookup(Replay(src, faults, wh, runs), FilmAt(DimKey(id))) == Some(PutFilm(f))
                         && f.filmId == id && f.title == src.films[id].title
  {
    var x := FilmR(id, src.films[id]);
    RowsAreStored(src, Film, x);
    var run := runs[i];
    assert x in run.rows;
    RunAdvancesIff(src, faults, wh, runs, i);
    var f := DimFilmOf(src, id, src.films[id]).value;
    ChangedRowApplied(src, faults, wh, runs, i, x, PutFilm(f));
  }
}

=== FILE: wrappers.dfy ===
/** Optional values, results with an error and pass/fail outcomes. */
module Wrappers {

  /** A nullable column value or a lookup that may miss. */
  datatype Option<+T> = None | Some(value: T) {
    function GetOr(default: T): T {
      match this
      case Some(v) => v
      case None => default
    }
  }

  /** A computation that either yields a value or raises an error. */
  datatype Result<+T, +E> = Ok(value: T) | Err(error: E)

  /** A computation that yields nothing but may raise an error. */
  datatype Outcome<+E> = Pass | Fail(error: E)
}
